=== FILE: README.md ===
# PDF travel organizer: the decision logic, in Dafny

The organizer scans the folder `PDFsForOrganizer`. For every PDF it takes
the text of the first pages and asks a language model where the document
belongs. It then copies the file into
`OrganizerPdfs/<continent>/<country>/<city>/` for every complete
destination in the reply. A (source, destination) pair already copied in
the run is not copied again. As configured, the ignore keywords reject
every file, so nothing is copied at all. This project models the parts of `main.py` that decide
things. Those are pure string functions and one small state machine:

- **Country names** (module `Country`). `normalize_country` looks a name up
  in the alias table `COUNTRY_NORMALIZATION` in two steps. It tries the
  stripped, lower-cased name first. It then tries that key with every
  character that is neither alphanumeric nor whitespace removed. If neither
  matches, it returns the stripped name title-cased.
- **City names** (module `City`). `normalize_city` splits on whitespace,
  applies `str.capitalize` to each word and joins the words with single
  spaces.
- **Python string primitives** on ASCII characters (modules `Ascii` and
  `Words`): `lower`, `upper`, `title`, `isalnum`, `isspace`, `strip()`,
  `split()` and `" ".join`.
- **The reply clean-up** (module `Fence`). Every "```json" is removed, then
  every "```", and the result is stripped.
- **File selection** (module `Selection`). A file is taken only if its
  lower-cased name ends in `.pdf` and contains none of the ignore keywords.
  The keywords are configured as two empty strings, and the empty string
  occurs in every name. So as configured, every PDF is ignored and nothing
  is ever copied. The model keeps this behaviour and proves it.
- **Placement** (module `Placement`). The loop over the destination
  records of one file works as follows:
  - each field is taken from its English key, then its Portuguese alias,
    then `""`;
  - the fields are normalised;
  - a record with an empty field is rejected;
  - a destination path is built;
  - a record whose (source, destination) key was already copied in this
    run is skipped;
  - otherwise the copy is attempted, and the key is remembered only if the
    copy succeeds.

  The folder loop around it threads the run-wide `copied` set from file to
  file.

Character classes and case mappings are those of ASCII; any other
character is treated as uncased, not alphanumeric and not whitespace
(see "## Left out" for what that changes). Python's whitespace for `strip` and `split` is
characters 9–13 and 28–32. `title` upper-cases a letter that follows a
non-letter and lower-cases every other letter. `capitalize` upper-cases
the first character and lower-cases the rest, so "McDonald" becomes
"Mcdonald". The continent is only upper-cased and never stripped. A
continent of " " therefore passes the completeness check and names a
folder " ". Both behaviours are what the code does, and the model follows
the code.

## Model

| member | source | states |
|---|---|---|
| Country.Lookup | main.py:27-91 | a hit of the alias table is always one of the fourteen canonical names and never empty; the empty key hits nothing |
| Country.AliasKey | main.py:96 | the first lookup key is the stripped name lower-cased character by character, and is empty exactly when the name is blank |
| Country.KeepAlnumSpace | main.py:97 | the second key keeps only letters, digits and whitespace and is no longer than the first; a character occurs in it exactly when it occurs in the first key and is alphanumeric or whitespace; a key without punctuation is kept whole; order and multiplicity follow from `Country.KeepConcat` |
| Country.KeepConcat | main.py:97 | dropping punctuation works piece by piece, so the kept characters stay in their order and number |
| Country.PunctKey | main.py:97 | the second key has no whitespace at its ends and nothing but letters, digits and whitespace; it takes its characters from the first key and keeps every letter and digit of it; a first key already in that shape is kept as it is |
| Country.NormalizeCountry | main.py:93-98 | the result is empty exactly when the input is empty or all whitespace; an alias hit on the stripped lower-cased name wins; failing that, a hit once punctuation is dropped; failing that, the stripped name title-cased, which differs from the input only in letter case; so the result is a canonical name or has the input's key |
| Country.ByAlias | main.py:96-98 | a name whose stripped lower-case form is an alias normalises to that alias's canonical name |
| Country.ByPunctAlias | main.py:97-98 | a name that is no alias but becomes one once punctuation is dropped normalises to that alias's canonical name |
| Country.UnitedStatesSpellings | main.py:29-32 | "usa", "U.S.A." and " u.s. " all normalise to "United States", the second only through the punctuation-free key |
| Country.CanonicalNamesFixed | main.py:27-98 | every canonical name of the table normalises to itself: "China" back through the table, "United Arab Emirates" through title-casing |
| Country.NormalizeCountryIdempotent | main.py:93-98 | normalising a country name twice gives the same as normalising it once |
| Country.FixedByTitle | main.py:96-98 | a stripped, title-shaped name without punctuation whose lower-case form is no alias is left unchanged |
| Ascii.TitleFromShaped | main.py:98 | what `title()` returns is title-shaped: every letter is upper-case exactly when the character before it is not a letter |
| Ascii.TitleFixedPoints | main.py:98 | `title()` leaves a string unchanged exactly when the string is title-shaped |
| Ascii.TitleFromIdempotent | main.py:98 | title-casing twice is title-casing once |
| Ascii.LowerOfTitle | main.py:96-98 | title-casing changes only letter case: the lower-case forms agree |
| Ascii.Lower | main.py:96 | `lower()` keeps the length and lower-cases every character; the same call lower-cases the file name at main.py:209 and main.py:216 |
| Ascii.Upper | main.py:242 | `upper()` keeps the length and upper-cases every character; it is the only change the continent gets |
| Ascii.TitleFrom | main.py:98 | `title()` keeps the length, which characters are letters and which are whitespace, and the lower-case form of every character; `Ascii.TitleFromShaped` gives the case of each letter |
| Words.Strip | main.py:96 | `strip()` returns the piece of the input between its leading and trailing whitespace, with no whitespace at either end, and is empty exactly when the input is all whitespace |
| Words.StripUnique | main.py:96 | any whitespace-free-ended piece with only whitespace around it is the stripped string |
| Words.StripPadded | main.py:96 | whitespace added around a string is exactly what `strip()` removes |
| Words.Split | main.py:103 | `split()` returns non-empty whitespace-free words and returns none exactly for all-whitespace input; which words it returns is fixed by `Words.SplitSkipSpace` (leading whitespace is skipped) and `Words.SplitWordFirst` (a leading word comes first, then the split of the rest) |
| Words.SplitStrip | main.py:103 | splitting the stripped string gives the same words as splitting the string |
| Words.SplitJoin | main.py:103 | splitting `" ".join(ws)` gives back the words `ws` |
| Words.JoinSplit | main.py:103 | a single-spaced string is the join of its own words |
| Words.JoinWordsShape | main.py:103 | the join of words is single-spaced and empty only for no words |
| Words.JoinWords | main.py:103 | `" ".join(ws)`: the words with one space between each two; its contract is carried by `Words.SplitJoin` and `Words.JoinWordsShape` |
| City.Capitalize | main.py:103 | `capitalize()` keeps the length; it upper-cases the first character and lower-cases every later one, so it keeps the whitespace and the lower-case form of every character |
| City.CapitalizeFixedPoints | main.py:103 | `capitalize()` leaves a word unchanged exactly when its first character is not a lower-case letter and no later character is an upper-case letter |
| City.CapitalizeIdempotent | main.py:103 | what `capitalize()` returns is capitalized, so capitalizing twice is capitalizing once |
| City.NormalizeCity | main.py:100-103 | the words of the result are the input's whitespace-separated words, in order, each capitalized; the result is single-spaced (no whitespace at the ends, none doubled, only plain spaces); it is empty exactly when the input is empty or all whitespace |
| City.SameWordsSame | main.py:103 | two single-spaced strings with the same words are equal |
| City.NormalizeCityIdempotent | main.py:100-103 | normalising a city twice gives the same as normalising it once |
| City.NormalizeCityFixedPoints | main.py:100-103 | the names left unchanged are exactly the single-spaced names each of whose words starts with a character that is not a lower-case letter and has no upper-case letter after it |
| Fence.Replace | main.py:185 | `replace` returns a text with no pattern start unchanged, and a removal never lengthens the text |
| Fence.Clean | main.py:182-185 | the cleaned reply has no whitespace at either end and no "```" anywhere, not even one that the removals bring together |
| Fence.ReplaceNoFence | main.py:185 | removing every "```" from left to right leaves none |
| Fence.CleanNoTicks | main.py:182-185 | a reply without backticks is only stripped |
| Fence.CleanJsonFenced | main.py:182-185 | a body without backticks, on its own lines inside a "```json" fence, cleans to the stripped body |
| Fence.CleanBareFenced | main.py:182-185 | a body without backticks, on its own lines inside a bare "```" fence, cleans to the stripped body |
| Selection.Contains | main.py:216 | `k in s` holds exactly when `k` occurs in `s` at some index |
| Selection.EndsWith | main.py:209 | `s.endswith(suffix)`: the suffix is no longer than `s` and equals its last characters |
| Selection.AnyContains | main.py:216 | `any(k in name ...)` holds exactly when some keyword occurs in the name |
| Selection.Select | main.py:209-219 | a file is taken exactly when its lower-cased name ends in ".pdf" and contains no keyword; it is rejected as not a PDF exactly when the suffix test fails |
| Selection.NothingTaken | main.py:216-219 | with the configured keywords, no file is ever taken, and every PDF is ignored by the keyword rule |
| Selection.PdfCaseInsensitive | main.py:209-216 | for any keyword list, names that agree up to letter case get the same verdict |
| Placement.FirstNonEmpty | main.py:234-236 | `a or b or ""` is empty exactly when every candidate is, and is otherwise the first non-empty candidate |
| Placement.FieldPrecedence | main.py:234-236 | the English key's value wins when it is non-empty; otherwise the Portuguese alias's value is used, and a missing value reads as `""` |
| Placement.Field | main.py:234-236 | `d.get(english) or d.get(alias) or ""` is one of the two values, and is empty exactly when both are |
| Placement.Normalize | main.py:240-242 | the city has the raw city's words, each capitalized, single-spaced, and is empty exactly when the raw city is blank; the country is a canonical name or has the raw country's lookup key, and is empty exactly when the raw country is blank; the continent is the raw continent upper-cased character by character |
| Placement.CompleteIff | main.py:240-246 | a record passes the completeness test exactly when its city and country are not blank and its continent is not empty |
| Placement.Complete | main.py:244 | `city and country and continent`: all three normalised fields are non-empty |
| Placement.BlankContinentPasses | main.py:242-246 | a continent of one space passes the completeness test and names a folder " " |
| Placement.SourcePath | main.py:213 | the source path is the file name under the source folder, separated by one "/", unless the name is itself absolute |
| Placement.Join | main.py:248-251 | `os.path.join` always ends with its last segment, and starts with the first unless the last is absolute |
| Placement.JoinPlain | main.py:248-251 | joining a slash-free segment to a path that does not end in "/" puts exactly one "/" between them |
| Placement.DestinationPath | main.py:248-251 | the destination always ends with the file name |
| Placement.DestinationLayout | main.py:248-251 | with segments free of "/", the destination is the destination folder, the continent, the country, the city and the file name, in this order, separated by single slashes |
| Placement.DestinationInjective | main.py:248-251 | with segments free of "/", two destinations are equal exactly when their places and file names are |
| Placement.SlashCollision | main.py:248-251 | a "/" inside a field is not told apart from a separator: the city "Lima/1" in "Peru" and the city "1" in "Peru/Lima" share a destination |
| Placement.KeyFor | main.py:252 | the key pairs the source path with a destination that ends with the file name and, for slash-free fields, is the folder path of the normalised place |
| Placement.Target | main.py:238-252 | a record has no target exactly when its raw city or country is blank or its raw continent is empty; otherwise its key is the source path and the destination path of its normalised place |
| Placement.SamePlaceSameTarget | main.py:248-252 | records naming the same place send the file to the same key |
| Placement.Step | main.py:244-263 | a record without a target is rejected; a key already copied is skipped; otherwise the copy is placed or fails as the copy does; the set only grows, only by this key, and exactly when the record is placed |
| Placement.DuplicateSkipped | main.py:252-256 | after a record is copied, a later record with the same key is skipped |
| Placement.FailedRetried | main.py:258-263 | a failed copy is not remembered, so a later record with the same key attempts the copy again |
| Placement.PlacedKeys | main.py:258-260 | the keys copied are exactly those of the records placed |
| Placement.CopyAll | main.py:233-263 | every record gets an outcome in order, and a rejected record stops nothing; each outcome carries its record's key; a record is skipped exactly when its key was copied earlier in the run; an unskipped record is placed exactly when its copy succeeds; no key is copied twice, and none that was copied before |
| Placement.PlaceRecords | main.py:233-263 | the loop over the records of one file, with the same guarantees as `CopyAll` |
| Placement.Triage | main.py:208-229 | a file is never processed unless it is taken by name, has non-blank text and has at least one record |
| Placement.OrganizeFile | main.py:208-263 | one file of the folder loop: it is processed exactly when it passes triage; an unprocessed file comes to its triage outcome and leaves the copied set alone; a processed one gets an outcome per record carrying that record's key, skips exactly the records whose key was copied before, places an unskipped record exactly when its copy succeeds, places no key twice, and adds exactly the keys it placed |
| Placement.OrganizeFolder | main.py:201-263 | every file gets an outcome, and each comes to what the file rules say against the keys copied by the files before it; the copied set is exactly the keys placed along the way; with the configured keywords nothing is copied |
| Placement.FolderRulesAt | main.py:206-263 | the folder rules hold file by file, each against the keys placed by the files before it |
| Placement.RunAtMostOnce | main.py:206-263 | across the run no key is copied twice: a record placed for a later file never has the key of one placed for an earlier file |

## Left out

- PDF text extraction (`extract_text`, through the PDF library) is left out. It is file I/O in a foreign library. The extracted text is an input of each `Listing`.
- The language-model call and the prompt are left out. They are a network call to an opaque service. Its reply is an input.
- `json.loads` is left out. It is a library parser. Its result enters as the sequence of records, and a reply that does not parse enters as no records. Records are maps from string keys to string values. A non-string JSON value and a reply that is not a list of objects are not modelled. In the program, a record that is not an object fails at `.get` (main.py:234), and a truthy non-string field fails at `.strip()` or `.upper()` (main.py:240-242). Either exception ends the whole run.
- Logging, log headers and timestamps are left out. They are append-only file output and the clock.
- `os.listdir`, `os.makedirs`, `shutil.copy2` and `print` are left out. They are filesystem and console effects. The folder listing is an input in the order the system gives it. Whether each copy succeeds is an input sequence, read for a record only when its copy is attempted.
- Placement.KeyFor: `os.path.abspath` is modelled as the identity. Python also prefixes the working directory and collapses ".", ".." and repeated "/", so two keys that differ only in such segments are distinct in the model but equal in the program.
- Placement.DestinationInjective: it is proved only for fields and file names without "/". The program does not reject a "/" in a field, and then two different places can share a destination, as `Placement.SlashCollision` shows.
- Placement.Step: `os.makedirs(final_dir)` is left out. In the program it runs before the duplicate test and outside the `try`. So a skipped record still creates its folder, and a failure to create the folder aborts the whole run instead of being reported as a failed copy.
- Placement.Join: POSIX paths are assumed, as `posixpath.join` builds them. On Windows, `os.path` is `ntpath`, with a different separator and a different rule for absolute segments.
- Ascii.TitleFrom: a non-ASCII letter counts as uncased, so the next letter is upper-cased. The model turns "Suíça" into "SuíçA" where Python returns "Suíça".
- Country.KeepAlnumSpace: a non-ASCII letter counts as punctuation and is dropped from the second key. The model normalises "usaé" to "United States" through the key "usa", where Python keeps "é" and returns "Usaé".
- Ascii.Lower: characters outside ASCII are left out. They are uncased, non-alphanumeric and not whitespace in this model, while Python applies full Unicode case mapping and classification.
- Fence.Replace: the pattern must be non-empty. Both patterns the program uses are non-empty, while Python's `replace` with an empty pattern inserts between every character. Its own contract says only that a text without the pattern's first character is unchanged and that removal never lengthens. What it does at a match, and that no "```" survives, is stated by `Fence.ReplaceNoFence` and by the fenced-reply lemmas.

=== FILE: ascii.dfy ===
/**
 Character classes and case mappings of Python's `str` methods, restricted to
 ASCII. A character outside ASCII is treated as uncased, not alphanumeric and
 not whitespace, so every mapping below leaves it unchanged.
 */
module Ascii {

  predicate IsUpper(c: char) { 'A' <= c <= 'Z' }

  predicate IsLower(c: char) { 'a' <= c <= 'z' }

  /** A letter that has an upper- and a lower-case form (`str.title` looks at this). */
  predicate IsCased(c: char) { IsUpper(c) || IsLower(c) }

  predicate IsDigit(c: char) { '0' <= c <= '9' }

  /** `str.isalnum` on one ASCII character. */
  predicate IsAlnum(c: char) { IsCased(c) || IsDigit(c) }

  /** `str.isspace` on one ASCII character: TAB, LF, VT, FF, CR, the four
      information separators 0x1C..0x1F, and SPACE. `str.strip()` and
      `str.split()` use the same class. */
  predicate IsSpace(c: char) {
    var n := c as int;
    (9 <= n <= 13) || (28 <= n <= 32)
  }

  function LowerChar(c: char): (r: char)
    ensures IsCased(r) == IsCased(c) && IsSpace(r) == IsSpace(c) && IsAlnum(r) == IsAlnum(c)
    ensures !IsUpper(r)
    ensures !IsCased(c) ==> r == c
  {
    if IsUpper(c) then (c as int + 32) as char else c
  }

  function UpperChar(c: char): (r: char)
    ensures IsCased(r) == IsCased(c) && IsSpace(r) == IsSpace(c) && IsAlnum(r) == IsAlnum(c)
    ensures !IsLower(r)
    ensures !IsCased(c) ==> r == c
  {
    if IsLower(c) then (c as int - 32) as char else c
  }

  /** Both case mappings forget which case they started from. */
  lemma CaseMapsAgree(c: char)
    ensures LowerChar(UpperChar(c)) == LowerChar(c)
    ensures UpperChar(LowerChar(c)) == UpperChar(c)
    ensures LowerChar(LowerChar(c)) == LowerChar(c)
    ensures UpperChar(UpperChar(c)) == UpperChar(c)
  {
  }

  /** `str.lower()`. */
  function Lower(s: string): (r: string)
    ensures |r| == |s|
    ensures forall i :: 0 <= i < |s| ==> r[i] == LowerChar(s[i])
  {
    if s == [] then [] else [LowerChar(s[0])] + Lower(s[1..])
  }

  /** `k` is `s` lower-cased, stated character by character. */
  predicate LowersTo(s: string, k: string) {
    |s| == |k| && forall i :: 0 <= i < |s| ==> LowerChar(s[i]) == k[i]
  }

  lemma LowerPointwise(s: string, k: string)
    requires LowersTo(s, k)
    ensures Lower(s) == k
  {
  }

  /** `str.upper()`. */
  function Upper(s: string): (r: string)
    ensures |r| == |s|
    ensures forall i :: 0 <= i < |s| ==> r[i] == UpperChar(s[i])
  {
    if s == [] then [] else [UpperChar(s[0])] + Upper(s[1..])
  }

  /** `str.title()`: a cased character is upper-cased when the character
      before it is not cased, and lower-cased otherwise; `prevCased` says
      whether the character before `s` was cased. */
  function TitleFrom(s: string, prevCased: bool): (r: string)
    ensures |r| == |s|
    ensures forall i :: 0 <= i < |s| ==> IsCased(r[i]) == IsCased(s[i]) && IsSpace(r[i]) == IsSpace(s[i])
    ensures forall i :: 0 <= i < |s| ==> LowerChar(r[i]) == LowerChar(s[i])
  {
    if s == [] then []
    else
      var c := if prevCased then LowerChar(s[0]) else UpperChar(s[0]);
      CaseMapsAgree(s[0]);
      [c] + TitleFrom(s[1..], IsCased(s[0]))
  }

  function Title(s: string): string
  {
    TitleFrom(s, false)
  }

  /** Every cased character of `s` is upper-case exactly when the character
      before it (`prevCased` for the first) is not cased: the strings
      `str.title` leaves alone. */
  predicate TitleShaped(s: string, prevCased: bool) {
    forall i :: 0 <= i < |s| ==> TitleShapedAt(s, i, prevCased)
  }

  predicate TitleShapedAt(s: string, i: nat, prevCased: bool)
    requires i < |s|
  {
    var before := if i == 0 then prevCased else IsCased(s[i - 1]);
    IsCased(s[i]) ==> if before then IsLower(s[i]) else IsUpper(s[i])
  }

  lemma {:induction false} TitleFromFixed(s: string, prevCased: bool)
    requires TitleShaped(s, prevCased)
    ensures TitleFrom(s, prevCased) == s
  {
    if s != [] {
      var t := s[1..];
      assert TitleShaped(t, IsCased(s[0])) by {
        forall i | 0 <= i < |t| ensures TitleShapedAt(t, i, IsCased(s[0])) {
          assert TitleShapedAt(s, i + 1, prevCased);
        }
      }
      TitleFromFixed(t, IsCased(s[0]));
      assert TitleShapedAt(s, 0, prevCased);
      assert s == [s[0]] + t;
    }
  }

  /** What `str.title` returns is title-shaped. */
  lemma {:induction false} TitleFromShaped(s: string, prevCased: bool)
    ensures TitleShaped(TitleFrom(s, prevCased), prevCased)
  {
    if s != [] {
      var r := TitleFrom(s, prevCased);
      var t := r[1..];
      CaseMapsAgree(s[0]);
      assert t == TitleFrom(s[1..], IsCased(s[0]));
      TitleFromShaped(s[1..], IsCased(s[0]));
      forall i | 0 <= i < |r| ensures TitleShapedAt(r, i, prevCased) {
        if i > 0 {
          assert TitleShapedAt(t, i - 1, IsCased(s[0]));
          assert r[i] == t[i - 1];
          assert IsCased(r[0]) == IsCased(s[0]);
        }
      }
    }
  }

  /** The strings `str.title` leaves alone are exactly the title-shaped ones. */
  lemma TitleFixedPoints(s: string, prevCased: bool)
    ensures TitleFrom(s, prevCased) == s <==> TitleShaped(s, prevCased)
  {
    if TitleFrom(s, prevCased) == s {
      TitleFromShaped(s, prevCased);
    } else if TitleShaped(s, prevCased) {
      TitleFromFixed(s, prevCased);
    }
  }

  /** Title-casing only changes the case of letters. */
  lemma LowerOfTitle(s: string)
    ensures Lower(Title(s)) == Lower(s)
  {
  }

  /** Title-casing twice is title-casing once. */
  lemma {:induction false} TitleFromIdempotent(s: string, prevCased: bool)
    ensures TitleFrom(TitleFrom(s, prevCased), prevCased) == TitleFrom(s, prevCased)
  {
    if s != [] {
      var t := TitleFrom(s, prevCased);
      CaseMapsAgree(s[0]);
      assert t[1..] == TitleFrom(s[1..], IsCased(s[0]));
      TitleFromIdempotent(s[1..], IsCased(s[0]));
    }
  }
}

=== FILE: city.dfy ===
/**
 City names: `normalize_city` splits the name on whitespace, applies
 `str.capitalize` to every word and joins the words with single spaces.
 `capitalize` lower-cases everything after the first character, so
 "McDonald" becomes "Mcdonald".
 */
module City {
  import opened Ascii
  import opened Words

  /** `str.capitalize()`: the first character upper-cased, the rest lower-cased. */
  function Capitalize(w: string): (r: string)
    ensures |r| == |w|
    ensures forall i :: 0 <= i < |w| ==> r[i] == (if i == 0 then UpperChar(w[i]) else LowerChar(w[i]))
    ensures forall i :: 0 <= i < |w| ==> IsSpace(r[i]) == IsSpace(w[i]) && LowerChar(r[i]) == LowerChar(w[i])
  {
    if w == [] then []
    else
      CaseMapsAgree(w[0]);
      [UpperChar(w[0])] + Lower(w[1..])
  }

  /** A capitalized word: its first character is not a lower-case letter
      and no later character is an upper-case letter. */
  predicate Capitalized(w: string) {
    w == [] || (!IsLower(w[0]) && forall i :: 1 <= i < |w| ==> !IsUpper(w[i]))
  }

  /** `capitalize` leaves a word alone exactly when it is capitalized. */
  lemma CapitalizeFixedPoints(w: string)
    ensures Capitalize(w) == w <==> Capitalized(w)
  {
    if w != [] {
      CaseMapsAgree(w[0]);
      if Capitalize(w) == w {
        forall i | 1 <= i < |w| ensures !IsUpper(w[i]) {
          CaseMapsAgree(w[i]);
          assert Capitalize(w)[i] == w[i];
        }
      }
      if Capitalized(w) {
        forall i | 0 <= i < |w| ensures Capitalize(w)[i] == w[i] {
          CaseMapsAgree(w[i]);
        }
      }
    }
  }

  /** What `capitalize` returns is capitalized. */
  lemma CapitalizeIdempotent(w: string)
    ensures Capitalized(Capitalize(w))
    ensures Capitalize(Capitalize(w)) == Capitalize(w)
  {
    var c := Capitalize(w);
    if w != [] {
      CaseMapsAgree(w[0]);
      forall i | 1 <= i < |w| ensures !IsUpper(c[i]) {
        CaseMapsAgree(w[i]);
      }
    }
    CapitalizeFixedPoints(c);
  }

  lemma CapitalizeWord(w: string)
    requires IsWord(w)
    ensures IsWord(Capitalize(w))
  {
  }

  function CapitalizeAll(ws: seq<string>): (rs: seq<string>)
    ensures |rs| == |ws|
    ensures forall i :: 0 <= i < |ws| ==> rs[i] == Capitalize(ws[i])
  {
    if ws == [] then [] else [Capitalize(ws[0])] + CapitalizeAll(ws[1..])
  }

  lemma CapitalizeAllWords(ws: seq<string>)
    requires AllWords(ws)
    ensures AllWords(CapitalizeAll(ws))
  {
    forall i | 0 <= i < |ws| ensures IsWord(CapitalizeAll(ws)[i]) {
      CapitalizeWord(ws[i]);
    }
  }

  /** `normalize_city`. Its words are the input's whitespace-separated words,
      in order, each capitalized; it is single-spaced (so it has no
      whitespace at its ends and no two whitespace characters in a row);
      and it is empty exactly when the input is empty or all whitespace. */
  function NormalizeCity(city: string): (r: string)
    ensures Split(r) == CapitalizeAll(Split(city))
    ensures SingleSpaced(r)
    ensures r == [] <==> AllSpace(city)
  {
    if city == [] then ""
    else
      var ws := CapitalizeAll(Split(Strip(city)));
      SplitStrip(city);
      CapitalizeAllWords(Split(city));
      SplitJoin(ws);
      JoinWordsShape(ws);
      JoinWords(ws)
  }

  /** Two single-spaced strings with the same words are the same string. */
  lemma SameWordsSame(a: string, b: string)
    requires SingleSpaced(a) && SingleSpaced(b) && Split(a) == Split(b)
    ensures a == b
  {
    JoinSplit(a);
    JoinSplit(b);
  }

  /** Normalising a city name twice is normalising it once. */
  lemma NormalizeCityIdempotent(city: string)
    ensures NormalizeCity(NormalizeCity(city)) == NormalizeCity(city)
  {
    var r := NormalizeCity(city);
    var ws := Split(city);
    assert CapitalizeAll(CapitalizeAll(ws)) == CapitalizeAll(ws) by {
      forall i | 0 <= i < |ws| ensures CapitalizeAll(CapitalizeAll(ws))[i] == CapitalizeAll(ws)[i] {
        CapitalizeIdempotent(ws[i]);
      }
    }
    SameWordsSame(NormalizeCity(r), r);
  }

  /** The names `normalize_city` leaves unchanged are exactly the
      single-spaced names whose every word is already capitalized. */
  lemma NormalizeCityFixedPoints(s: string)
    ensures NormalizeCity(s) == s <==> SingleSpaced(s) && (forall w :: w in Split(s) ==> Capitalized(w))
  {
    if NormalizeCity(s) == s {
      FixedPointShape(s);
    }
    if SingleSpaced(s) && (forall w :: w in Split(s) ==> Capitalized(w)) {
      ShapeFixedPoint(s);
    }
  }

  lemma FixedPointShape(s: string)
    requires NormalizeCity(s) == s
    ensures SingleSpaced(s) && (forall w :: w in Split(s) ==> Capitalized(w))
  {
    var ws := Split(s);
    forall w | w in ws ensures Capitalized(w) {
      var i :| 0 <= i < |ws| && ws[i] == w;
      assert CapitalizeAll(ws)[i] == w;
      CapitalizeFixedPoints(w);
    }
  }

  lemma ShapeFixedPoint(s: string)
    requires SingleSpaced(s) && (forall w :: w in Split(s) ==> Capitalized(w))
    ensures NormalizeCity(s) == s
  {
    var ws := Split(s);
    forall i | 0 <= i < |ws| ensures CapitalizeAll(ws)[i] == ws[i] {
      assert ws[i] in ws;
      CapitalizeFixedPoints(ws[i]);
    }
    assert CapitalizeAll(ws) == ws;
    SameWordsSame(NormalizeCity(s), s);
  }
}

=== FILE: country.dfy ===
/**
 Country names: `normalize_country` looks the name up in the fixed alias
 table `COUNTRY_NORMALIZATION`, first by its stripped lower-case form, then
 by that form with every character that is neither alphanumeric nor
 whitespace removed, and otherwise title-cases the stripped name.
 */
module Country {
  import opened Ascii
  import opened Words
  import opened Wrappers

  /** The canonical names the table maps to. */
  const CanonicalNames: set<string> := {
    "United States", "United Kingdom", "Brazil", "Argentina", "Chile", "Spain", "China",
    "South Korea", "Japan", "Thailand", "India", "Switzerland", "Netherlands", "United Arab Emirates"
  }

  /** `COUNTRY_NORMALIZATION.get(key)`: the table of lower-case aliases,
      grouped by the canonical country name each one stands for, in the
      order of the source. Every hit is a canonical name. */
  function Lookup(key: string): (r: Option<string>)
    ensures r.Some? ==> r.value in CanonicalNames && r.value != []
    ensures key == [] ==> r.None?
  {
    if key in {"usa", "us", "u.s.", "u.s.a", "estados unidos", "america", "united states of america"} then
      Some("United States")
    else if key in {"uk", "u.k.", "england", "britain", "great britain"} then Some("United Kingdom")
    else if key in {"brasil", "brazil"} then Some("Brazil")
    else if key in {"argentina"} then Some("Argentina")
    else if key in {"chile"} then Some("Chile")
    else if key in {"spain", "espanha"} then Some("Spain")
    else if key in {"china"} then Some("China")
    else if key in {"korea", "south korea"} then Some("South Korea")
    else if key in {"japan"} then Some("Japan")
    else if key in {"thailand"} then Some("Thailand")
    else if key in {"india"} then Some("India")
    else if key in {"switzerland", "suisse", "schweiz"} then Some("Switzerland")
    else if key in {"nederland", "holland", "netherlands"} then Some("Netherlands")
    else if key in {"uae", "emirates", "dubai"} then Some("United Arab Emirates")
    else if key in {"hong kong"} then Some("China")
    else None
  }

  /** The first lookup key: `country.strip().lower()`. */
  function AliasKey(country: string): (r: string)
    ensures LowersTo(Strip(country), r)
    ensures r == [] <==> AllSpace(country)
  {
    Lower(Strip(country))
  }

  /** Nothing but letters, digits and whitespace: what `KeepAlnumSpace` keeps. */
  predicate AlnumSpaceOnly(s: string) {
    forall i :: 0 <= i < |s| ==> IsAlnum(s[i]) || IsSpace(s[i])
  }

  /** Every character that is neither alphanumeric nor whitespace removed. */
  function KeepAlnumSpace(s: string): (r: string)
    ensures AlnumSpaceOnly(r) && |r| <= |s|
    ensures forall c :: c in r <==> c in s && (IsAlnum(c) || IsSpace(c))
    ensures AlnumSpaceOnly(s) ==> r == s
  {
    if s == [] then []
    else if IsAlnum(s[0]) || IsSpace(s[0]) then [s[0]] + KeepAlnumSpace(s[1..])
    else KeepAlnumSpace(s[1..])
  }

  /** The second lookup key, `key2`: the first key without punctuation, stripped again. */
  function PunctKey(key: string): (r: string)
    ensures Stripped(r) && AlnumSpaceOnly(r)
    ensures forall c :: c in r ==> c in key
    ensures forall c :: c in key && IsAlnum(c) ==> c in r
    ensures Stripped(key) && AlnumSpaceOnly(key) ==> r == key
  {
    var kept := KeepAlnumSpace(key);
    var r := Strip(kept);
    StripInside(kept);
    assert forall c :: c in key && IsAlnum(c) ==> c in r by {
      forall c | c in key && IsAlnum(c) ensures c in r {
        StripKeepsNonSpace(kept, c);
      }
    }
    if Stripped(key) && AlnumSpaceOnly(key) then
      StripStripped(key);
      r
    else
      r
  }

  /** `normalize_country`. The result is empty exactly when the input is
      empty or all whitespace. An alias matched by the stripped lower-case
      input wins; failing that, an alias matched once punctuation is
      dropped; failing that, the stripped input title-cased, which differs
      from the input only in letter case. */
  function NormalizeCountry(country: string): (r: string)
    ensures r == [] <==> AllSpace(country)
    ensures Lookup(AliasKey(country)).Some? ==> r == Lookup(AliasKey(country)).value
    ensures Lookup(AliasKey(country)).None? && Lookup(PunctKey(AliasKey(country))).Some? ==>
              r == Lookup(PunctKey(AliasKey(country))).value
    ensures Lookup(AliasKey(country)).None? && Lookup(PunctKey(AliasKey(country))).None? ==>
              r == Title(Strip(country)) && Lower(r) == AliasKey(country)
    ensures r in CanonicalNames || Lower(r) == AliasKey(country)
  {
    if country == [] then ""
    else
      var key := AliasKey(country);
      var key2 := PunctKey(key);
      assert AllSpace(country) ==> key == [] && KeepAlnumSpace(key) == [] && key2 == [];
      match Lookup(key)
      case Some(canonical) => canonical
      case None =>
        match Lookup(key2)
        case Some(canonical) => canonical
        case None =>
          LowerOfTitle(Strip(country));
          Title(Strip(country))
  }

  /** A name whose lower-case form is one of its own aliases is left alone. */
  lemma FixedByTable(v: string, key: string)
    requires Stripped(v) && LowersTo(v, key) && Lookup(key) == Some(v)
    ensures NormalizeCountry(v) == v
  {
    LowerPointwise(v, key);
    StripStripped(v);
  }

  /** A title-cased name whose lower-case form is no alias, and has no
      punctuation to drop, is left alone by the title-casing fallback. */
  lemma FixedByTitle(v: string, key: string)
    requires Stripped(v) && v != [] && TitleShaped(v, false)
    requires LowersTo(v, key) && AlnumSpaceOnly(key) && Lookup(key) == None
    ensures NormalizeCountry(v) == v
  {
    LowerPointwise(v, key);
    TitleFromFixed(v, false);
    assert Stripped(key) by {
      assert key[0] == LowerChar(v[0]) && key[|key| - 1] == LowerChar(v[|v| - 1]);
    }
    StripStripped(v);
    StripStripped(key);
  }

  /** Every character of a stripped string comes from the string. */
  lemma StripInside(s: string)
    ensures forall c :: c in Strip(s) ==> c in s
    ensures AlnumSpaceOnly(s) ==> AlnumSpaceOnly(Strip(s))
  {
    var r := Strip(s);
    var k := SpanSpace(s);
    assert forall j :: 0 <= j < |r| ==> r[j] == s[k + j];
  }

  /** Normalising a country name twice is normalising it once: a table hit
      is a canonical name, which is its own normal form, and a title-cased
      fallback has the same lookup keys as the input, so it falls back again
      and title-casing is idempotent. */
  lemma NormalizeCountryIdempotent(country: string)
    ensures NormalizeCountry(NormalizeCountry(country)) == NormalizeCountry(country)
  {
    var key := AliasKey(country);
    if Lookup(key).Some? || Lookup(PunctKey(key)).Some? {
      CanonicalNamesFixed();
    } else {
      FallbackIdempotent(country);
    }
  }

  /** The title-cased fallback falls back again, to itself. */
  lemma FallbackIdempotent(country: string)
    requires Lookup(AliasKey(country)).None? && Lookup(PunctKey(AliasKey(country))).None?
    ensures NormalizeCountry(NormalizeCountry(country)) == NormalizeCountry(country)
  {
    var t := Strip(country);
    var r := NormalizeCountry(country);
    assert r == Title(t);
    TitleKeepsKey(country);
    StripStripped(r);
    assert Lookup(AliasKey(r)).None? && Lookup(PunctKey(AliasKey(r))).None?;
    assert NormalizeCountry(r) == Title(r);
    TitleFromIdempotent(t, false);
  }

  /** Title-casing the stripped name keeps it stripped and keeps its key. */
  lemma TitleKeepsKey(country: string)
    ensures Stripped(Title(Strip(country)))
    ensures AliasKey(Title(Strip(country))) == AliasKey(country)
  {
    var t := Strip(country);
    var r := Title(t);
    LowerOfTitle(t);
    assert Stripped(r) by {
      if r != [] {
        assert IsSpace(r[0]) == IsSpace(t[0]) && IsSpace(r[|r| - 1]) == IsSpace(t[|t| - 1]);
      }
    }
    StripStripped(r);
  }

  /** A name whose stripped, lower-cased form is an alias normalises to
      that alias's canonical name. This is the first clause of
      `NormalizeCountry` with the key given as a `LowersTo` witness, the form
      in which a literal key can be checked character by character. */
  lemma ByAlias(v: string, t: string, key: string)
    requires Strip(v) == t && LowersTo(t, key) && Lookup(key).Some?
    ensures NormalizeCountry(v) == Lookup(key).value
  {
    LowerPointwise(t, key);
  }

  /** A name whose stripped, lower-cased form is no alias, but becomes one
      once punctuation is dropped, normalises to that alias's canonical name:
      the second clause of `NormalizeCountry` in the same witness form. */
  lemma ByPunctAlias(v: string, t: string, key: string, key2: string)
    requires Strip(v) == t && LowersTo(t, key) && Lookup(key).None?
    requires PunctKey(key) == key2 && Lookup(key2).Some?
    ensures NormalizeCountry(v) == Lookup(key2).value
  {
    LowerPointwise(t, key);
  }

  /** "usa", "U.S.A." and " u.s. " all name the United States: the first
      and the last directly, the second once its dots are dropped. */
  lemma UnitedStatesSpellings(a: string, b: string, c: string)
    requires a == "usa" && b == "U.S.A." && c == " u.s. "
    ensures NormalizeCountry(a) == "United States"
    ensures NormalizeCountry(b) == "United States"
    ensures NormalizeCountry(c) == "United States"
  {
    SpellingUsa(a);
    SpellingDotted(b);
    SpellingPadded(c);
  }

  lemma SpellingUsa(a: string)
    requires a == "usa"
    ensures NormalizeCountry(a) == "United States"
  {
    StripStripped(a);
    ByAlias(a, a, a);
  }

  lemma SpellingPadded(c: string)
    requires c == " u.s. "
    ensures NormalizeCountry(c) == "United States"
  {
    var t := "u.s.";
    assert c[1..5] == t;
    StripUnique(c, 1, t);
    ByAlias(c, t, t);
  }

  lemma SpellingDotted(b: string)
    requires b == "U.S.A."
    ensures NormalizeCountry(b) == "United States"
  {
    var key := "u.s.a.";
    DottedKey(b, key);
    StripStripped(b);
    DotsDropped(key);
    ByPunctAlias(b, b, key, "usa");
  }

  lemma DottedKey(b: string, key: string)
    requires b == "U.S.A." && key == "u.s.a."
    ensures Stripped(b) && LowersTo(b, key) && Lookup(key).None?
  {
  }

  lemma DotsDropped(key: string)
    requires key == "u.s.a."
    ensures PunctKey(key) == "usa" && Lookup("usa") == Some("United States")
  {
    DotsKept(key);
    StripStripped("usa");
  }

  lemma DotsKept(key: string)
    requires key == "u.s.a."
    ensures KeepAlnumSpace(key) == "usa"
  {
    assert key == [key[0], '.'] + ([key[2], '.'] + [key[4], '.']);
    LettersKept(key[0], key[2], key[4]);
  }

  /** Three letters, each followed by a dot, keep only the letters. */
  lemma LettersKept(x: char, y: char, z: char)
    requires 'a' <= x <= 'z' && 'a' <= y <= 'z' && 'a' <= z <= 'z'
    ensures KeepAlnumSpace([x, '.'] + ([y, '.'] + [z, '.'])) == [x, y, z]
  {
    KeepConcat([x, '.'], [y, '.'] + [z, '.']);
    KeepConcat([y, '.'], [z, '.']);
    KeepDotted(x);
    KeepDotted(y);
    KeepDotted(z);
  }

  /** A letter followed by a dot keeps only the letter. */
  lemma KeepDotted(c: char)
    requires 'a' <= c <= 'z'
    ensures KeepAlnumSpace([c, '.']) == [c]
  {
    assert [c, '.'][1..] == ['.'];
  }

  /** Dropping punctuation works piece by piece. */
  lemma {:induction false} KeepConcat(a: string, b: string)
    ensures KeepAlnumSpace(a + b) == KeepAlnumSpace(a) + KeepAlnumSpace(b)
  {
    if a == [] {
      assert a + b == b;
    } else {
      assert (a + b)[0] == a[0];
      assert (a + b)[1..] == a[1..] + b;
      KeepConcat(a[1..], b);
    }
  }

  /** Every canonical name of the table is its own normal form: the names
      that are also aliases come back through the table, the others
      through title-casing. */
  lemma CanonicalNamesFixed()
    ensures forall v :: v in CanonicalNames ==> NormalizeCountry(v) == v
  {
    forall v | v in CanonicalNames ensures NormalizeCountry(v) == v {
      if v == "Brazil" {
        EntryBrazil(v, "brazil");
        FixedByTable(v, "brazil");
      } else if v == "Argentina" {
        EntryArgentina(v, "argentina");
        FixedByTable(v, "argentina");
      } else if v == "Chile" {
        EntryChile(v, "chile");
        FixedByTable(v, "chile");
      } else if v == "Spain" {
        EntrySpain(v, "spain");
        FixedByTable(v, "spain");
      } else if v == "China" {
        EntryChina(v, "china");
        FixedByTable(v, "china");
      } else if v == "South Korea" {
        EntrySouthKorea(v, "south korea");
        FixedByTable(v, "south korea");
      } else if v == "Japan" {
        EntryJapan(v, "japan");
        FixedByTable(v, "japan");
      } else if v == "Thailand" {
        EntryThailand(v, "thailand");
        FixedByTable(v, "thailand");
      } else if v == "India" {
        EntryIndia(v, "india");
        FixedByTable(v, "india");
      } else if v == "Switzerland" {
        EntrySwitzerland(v, "switzerland");
        FixedByTable(v, "switzerland");
      } else if v == "Netherlands" {
        EntryNetherlands(v, "netherlands");
        FixedByTable(v, "netherlands");
      } else if v == "United States" {
        EntryUnitedStates(v, "united states");
        UnitedStatesTitled(v);
        UnitedStatesNoAlias("united states");
        FixedByTitle(v, "united states");
      } else if v == "United Kingdom" {
        EntryUnitedKingdom(v, "united kingdom");
        UnitedKingdomTitled(v);
        UnitedKingdomNoAlias("united kingdom");
        FixedByTitle(v, "united kingdom");
      } else {
        EntryUnitedArabEmirates(v, "united arab emirates");
        UnitedArabEmiratesTitled(v);
        UnitedArabEmiratesNoAlias("united arab emirates");
        FixedByTitle(v, "united arab emirates");
      }
    }
  }

  // The character-level facts about each canonical name that the two
  // lemmas above need, one name at a time. Each literal gets its own small
  // lemma because the facts are cheap to check about one string on its own
  // but expensive once they sit next to the `NormalizeCountry` terms of
  // `CanonicalNamesFixed`; the shared reasoning lives in `FixedByTable` and
  // `FixedByTitle`.

  lemma EntryBrazil(v: string, key: string)
    requires v == "Brazil" && key == "brazil"
    ensures Stripped(v) && LowersTo(v, key) && Lookup(key) == Some(v)
  {
  }

  lemma EntryArgentina(v: string, key: string)
    requires v == "Argentina" && key == "argentina"
    ensures Stripped(v) && LowersTo(v, key) && Lookup(key) == Some(v)
  {
  }

  lemma EntryChile(v: string, key: string)
    requires v == "Chile" && key == "chile"
    ensures Stripped(v) && LowersTo(v, key) && Lookup(key) == Some(v)
  {
  }

  lemma EntrySpain(v: string, key: string)
    requires v == "Spain" && key == "spain"
    ensures Stripped(v) && LowersTo(v, key) && Lookup(key) == Some(v)
  {
  }

  lemma EntryChina(v: string, key: string)
    requires v == "China" && key == "china"
    ensures Stripped(v) && LowersTo(v, key) && Lookup(key) == Some(v)
  {
  }

  lemma EntrySouthKorea(v: string, key: string)
    requires v == "South Korea" && key == "south korea"
    ensures Stripped(v) && LowersTo(v, key) && Lookup(key) == Some(v)
  {
  }

  lemma EntryJapan(v: string, key: string)
    requires v == "Japan" && key == "japan"
    ensures Stripped(v) && LowersTo(v, key) && Lookup(key) == Some(v)
  {
  }

  lemma EntryThailand(v: string, key: string)
    requires v == "Thailand" && key == "thailand"
    ensures Stripped(v) && LowersTo(v, key) && Lookup(key) == Some(v)
  {
  }

  lemma EntryIndia(v: string, key: string)
    requires v == "India" && key == "india"
    ensures Stripped(v) && LowersTo(v, key) && Lookup(key) == Some(v)
  {
  }

  lemma EntrySwitzerland(v: string, key: string)
    requires v == "Switzerland" && key == "switzerland"
    ensures Stripped(v) && LowersTo(v, key) && Lookup(key) == Some(v)
  {
  }

  lemma EntryNetherlands(v: string, key: string)
    requires v == "Netherlands" && key == "netherlands"
    ensures Stripped(v) && LowersTo(v, key) && Lookup(key) == Some(v)
  {
  }

  lemma EntryUnitedStates(v: string, key: string)
    requires v == "United States" && key == "united states"
    ensures Stripped(v) && v != [] && LowersTo(v, key) && AlnumSpaceOnly(key)
  {
  }

  lemma UnitedStatesTitled(v: string)
    requires v == "United States"
    ensures TitleShaped(v, false)
  {
  }

  lemma UnitedStatesNoAlias(key: string)
    requires key == "united states"
    ensures Lookup(key) == None
  {
  }

  lemma EntryUnitedKingdom(v: string, key: string)
    requires v == "United Kingdom" && key == "united kingdom"
    ensures Stripped(v) && v != [] && LowersTo(v, key) && AlnumSpaceOnly(key)
  {
  }

  lemma UnitedKingdomTitled(v: string)
    requires v == "United Kingdom"
    ensures TitleShaped(v, false)
  {
  }

  lemma UnitedKingdomNoAlias(key: string)
    requires key == "united kingdom"
    ensures Lookup(key) == None
  {
  }

  lemma EntryUnitedArabEmirates(v: string, key: string)
    requires v == "United Arab Emirates" && key == "united arab emirates"
    ensures Stripped(v) && v != [] && LowersTo(v, key) && AlnumSpaceOnly(key)
  {
  }

  lemma UnitedArabEmiratesTitled(v: string)
    requires v == "United Arab Emirates"
    ensures TitleShaped(v, false)
  {
  }

  lemma UnitedArabEmiratesNoAlias(key: string)
    requires key == "united arab emirates"
    ensures Lookup(key) == None
  {
  }
}

=== FILE: fence.dfy ===
/**
 Cleaning the classifier's reply before it is parsed as JSON: the reply is
 stripped, every "```json" is removed, then every remaining "```", and the
 rest is stripped again.
 */
module Fence {
  import opened Words

  const Tick: char := '`'
  const Fence: string := "```"
  const JsonFence: string := "```json"

  /** `s.replace(pat, rep)` for a non-empty pattern: occurrences are found
      from the left and do not overlap. */
  function Replace(s: string, pat: string, rep: string): (r: string)
    requires pat != []
    ensures (forall i :: 0 <= i < |s| ==> s[i] != pat[0]) ==> r == s
    ensures rep == [] ==> |r| <= |s|
    decreases |s|
  {
    if |s| < |pat| then s
    else if s[..|pat|] == pat then rep + Replace(s[|pat|..], pat, rep)
    else [s[0]] + Replace(s[1..], pat, rep)
  }

  /** `s` has no character that could start a fence. */
  predicate NoTicks(s: string) {
    forall i :: 0 <= i < |s| ==> s[i] != Tick
  }

  /** Three ticks in a row start at index `i` of `x`. */
  predicate FenceAt(x: string, i: nat)
    requires i + 3 <= |x|
  {
    x[i] == Tick && x[i + 1] == Tick && x[i + 2] == Tick
  }

  /** "```" does not occur in `x`. */
  predicate NoFence(x: string) {
    forall i :: 0 <= i && i + 3 <= |x| ==> !FenceAt(x, i)
  }

  predicate TwoTicksFirst(x: string) {
    |x| >= 2 && x[0] == Tick && x[1] == Tick
  }

  /** `raw.replace("```json", "").replace("```", "").strip()`, where `raw`
      is the reply text already stripped. No "```" is left in the result,
      not even one that the removals bring together, and it has no
      whitespace at either end. */
  function Clean(reply: string): (r: string)
    ensures Stripped(r) && NoFence(r)
  {
    var s := Replace(Replace(Strip(reply), JsonFence, ""), Fence, "");
    ReplaceNoFence(Replace(Strip(reply), JsonFence, ""));
    StripNoFence(s);
    Strip(s)
  }

  /** Removing every "```" never leaves two ticks at the front of a text
      that did not start with two. */
  lemma NotTwoTicks(u: string)
    requires !TwoTicksFirst(u)
    ensures !TwoTicksFirst(Replace(u, Fence, ""))
  {
    if |u| >= 3 && u[0] == Tick {
      var w := u[1..];
      assert w[0] != Tick;
      assert u[..3] != Fence;
      assert |w| >= 3 ==> w[..3] != Fence;
    }
  }

  /** Removing every "```" removes them all: the leftmost-first scan never
      joins two tick runs into a new one. */
  lemma {:induction false} ReplaceNoFence(s: string)
    ensures NoFence(Replace(s, Fence, ""))
    decreases |s|
  {
    if |s| >= 3 {
      if s[..3] == Fence {
        ReplaceNoFence(s[3..]);
        assert "" + Replace(s[3..], Fence, "") == Replace(s[3..], Fence, "");
      } else {
        var w := Replace(s[1..], Fence, "");
        ReplaceNoFence(s[1..]);
        if s[0] == Tick {
          var h := s[..3];
          assert h[0] == s[0] && h[1] == s[1] && h[2] == s[2];
          assert !TwoTicksFirst(s[1..]);
          NotTwoTicks(s[1..]);
        }
        var x := [s[0]] + w;
        forall i | 0 <= i && i + 3 <= |x| ensures !FenceAt(x, i) {
          if i > 0 {
            assert FenceAt(x, i) == FenceAt(w, i - 1);
          }
        }
      }
    }
  }

  /** Stripping cuts a piece out of the text, so it adds no "```". */
  lemma StripNoFence(s: string)
    requires NoFence(s)
    ensures NoFence(Strip(s))
  {
    var r := Strip(s);
    var k := SpanSpace(s);
    forall i | 0 <= i && i + 3 <= |r| ensures !FenceAt(r, i) {
      assert r[i] == s[k + i] && r[i + 1] == s[k + i + 1] && r[i + 2] == s[k + i + 2];
      assert !FenceAt(s, k + i);
    }
  }

  /** Text before the first tick is copied through unchanged. */
  lemma {:induction false} ReplaceAfter(t: string, u: string, pat: string, rep: string)
    requires pat != [] && pat[0] == Tick && NoTicks(t)
    ensures Replace(t + u, pat, rep) == t + Replace(u, pat, rep)
  {
    if t != [] {
      var s := t + u;
      assert s[0] == t[0] != pat[0];
      assert |s| >= |pat| ==> s[..|pat|] != pat;
      assert s[1..] == t[1..] + u;
      ReplaceAfter(t[1..], u, pat, rep);
      assert [t[0]] + (t[1..] + Replace(u, pat, rep)) == t + Replace(u, pat, rep);
    } else {
      assert t + u == u;
    }
  }

  /** A reply without ticks is only stripped. */
  lemma CleanNoTicks(reply: string)
    requires NoTicks(reply)
    ensures Clean(reply) == Strip(reply)
  {
    var s := Strip(reply);
    assert NoTicks(s) by {
      forall i | 0 <= i < |s| ensures s[i] != Tick {
        assert s[i] == reply[SpanSpace(reply) + i];
      }
    }
    StripStripped(s);
  }

  /** A pattern at the front is replaced. */
  lemma ReplaceHead(pat: string, u: string, rep: string)
    requires pat != []
    ensures Replace(pat + u, pat, rep) == rep + Replace(u, pat, rep)
  {
    assert (pat + u)[..|pat|] == pat && (pat + u)[|pat|..] == u;
  }

  /** A front that does not start the pattern is copied. */
  lemma ReplaceSkip(s: string, pat: string, rep: string)
    requires pat != [] && s != [] && (|s| < |pat| || s[..|pat|] != pat)
    ensures Replace(s, pat, rep) == [s[0]] + Replace(s[1..], pat, rep)
  {
    if |s| < |pat| {
      assert [s[0]] + s[1..] == s;
    }
  }

  /** The closing fence goes, the tick-free text before it stays. */
  lemma DropClosing(t: string)
    requires NoTicks(t)
    ensures Replace(t + Fence, JsonFence, "") == t + Fence
    ensures Replace(t + Fence, Fence, "") == t
  {
    ReplaceAfter(t, Fence, JsonFence, "");
    ReplaceAfter(t, Fence, Fence, "");
    ReplaceHead(Fence, [], "");
    assert Fence + [] == Fence && t + "" == t;
  }

  /** An opening bare fence followed by a line break is no "```json". */
  lemma BareOpening(u: string)
    requires u != [] && u[0] == '\n'
    ensures Replace(Fence + u, JsonFence, "") == Fence + Replace(u, JsonFence, "")
  {
    var s := Fence + u;
    assert s[1..] == "``" + u && s[2..] == "`" + u && s[3..] == u;
    assert s[3] != JsonFence[3];
    ReplaceSkip(s, JsonFence, "");
    assert s[1..][2] != JsonFence[2];
    ReplaceSkip(s[1..], JsonFence, "");
    assert s[2..][1] != JsonFence[1];
    ReplaceSkip(s[2..], JsonFence, "");
  }

  /** The two replacement passes on a "```json" fence around tick-free lines. */
  lemma JsonPasses(t: string)
    requires NoTicks(t)
    ensures Replace(JsonFence + (t + Fence), JsonFence, "") == t + Fence
    ensures Replace(t + Fence, Fence, "") == t
  {
    ReplaceHead(JsonFence, t + Fence, "");
    DropClosing(t);
    assert "" + (t + Fence) == t + Fence;
  }

  /** The two replacement passes on a bare fence around tick-free lines. */
  lemma BarePasses(t: string)
    requires NoTicks(t) && t != [] && t[0] == '\n'
    ensures Replace(Fence + (t + Fence), JsonFence, "") == Fence + (t + Fence)
    ensures Replace(Fence + (t + Fence), Fence, "") == t
  {
    BareOpening(t + Fence);
    DropClosing(t);
    ReplaceHead(Fence, t + Fence, "");
    assert "" + t == t;
  }

  /** The passes of `Clean`, given the outcome of each. */
  lemma Cleaned(reply: string, r1: string, r2: string)
    requires Stripped(reply)
    requires Replace(reply, JsonFence, "") == r1 && Replace(r1, Fence, "") == r2
    ensures Clean(reply) == Strip(r2)
  {
    StripStripped(reply);
  }

  /** A reply that is a JSON body inside a "```json" fence, the body on
      lines of its own, cleans to the stripped body. */
  lemma CleanJsonFenced(body: string)
    requires NoTicks(body)
    ensures Clean(JsonFence + "\n" + body + "\n" + Fence) == Strip(body)
  {
    var t := "\n" + body + "\n";
    var reply := JsonFence + "\n" + body + "\n" + Fence;
    assert reply == JsonFence + (t + Fence);
    assert Stripped(reply);
    StripStripped(reply);
    assert NoTicks(t);
    JsonPasses(t);
    Cleaned(reply, t + Fence, t);
    StripPadded("\n", body, "\n");
  }

  /** The same with a bare "```" fence. */
  lemma CleanBareFenced(body: string)
    requires NoTicks(body)
    ensures Clean(Fence + "\n" + body + "\n" + Fence) == Strip(body)
  {
    var t := "\n" + body + "\n";
    var reply := Fence + "\n" + body + "\n" + Fence;
    assert reply == Fence + (t + Fence);
    assert Stripped(reply);
    StripStripped(reply);
    assert NoTicks(t);
    BarePasses(t);
    Cleaned(reply, reply, t);
    StripPadded("\n", body, "\n");
  }
}

=== FILE: placement.dfy ===
/**
 Placing one PDF according to the destinations the classifier returned for
 it. Each destination record yields a city, a country and a continent; a
 record missing any of them is rejected, the others give a folder
 `OrganizerPdfs/<continent>/<country>/<city>` that the file is copied into,
 at most once per run for each (source, destination) pair.
 */
module Placement {
  import opened Ascii
  import opened Words
  import opened City
  import opened Country
  import opened Wrappers
  import opened Selection

  /** One destination record of the reply. A key that is absent or whose
      value is JSON `null` is simply not in the map. */
  type Record = map<string, string>

  const SourceFolder: string := "PDFsForOrganizer"
  const DestinationFolder: string := "OrganizerPdfs"

  /** `d.get(k)`, with a missing value read as the empty string (both are
      false for `or`). */
  function Get(d: Record, k: string): string {
    if k in d then d[k] else ""
  }

  /** Python's `a or b or ... or ""` on strings: the first non-empty one. */
  function FirstNonEmpty(vs: seq<string>): (r: string)
    ensures r == [] <==> forall i :: 0 <= i < |vs| ==> vs[i] == []
    ensures r != [] ==> exists i :: 0 <= i < |vs| && vs[i] == r && forall j :: 0 <= j < i ==> vs[j] == []
  {
    if vs == [] then ""
    else if vs[0] != [] then vs[0]
    else
      var r := FirstNonEmpty(vs[1..]);
      assert forall i :: 1 <= i < |vs| ==> vs[i] == vs[1..][i - 1];
      if r != [] then
        assert exists i :: 1 <= i < |vs| && vs[i] == r && forall j :: 0 <= j < i ==> vs[j] == [] by {
          var i :| 0 <= i < |vs[1..]| && vs[1..][i] == r && forall j :: 0 <= j < i ==> vs[1..][j] == [];
          assert vs[i + 1] == r;
          assert forall j :: 0 <= j < i + 1 ==> vs[j] == [] by {
            forall j | 0 <= j < i + 1 ensures vs[j] == [] {
              if j > 0 {
                assert vs[j] == vs[1..][j - 1];
              }
            }
          }
        }
        r
      else
        r
  }

  /** `d.get(english) or d.get(alias) or ""`: one of the two values, empty
      only when both are. */
  function Field(d: Record, english: string, alias: string): (r: string)
    ensures r == Get(d, english) || r == Get(d, alias)
    ensures r == [] <==> Get(d, english) == [] && Get(d, alias) == []
  {
    var vs := [Get(d, english), Get(d, alias)];
    assert vs[0] == Get(d, english) && vs[1] == Get(d, alias);
    FirstNonEmpty(vs)
  }

  /** The English key wins when its value is non-empty, the Portuguese
      alias is used otherwise, and a field that neither gives is empty. */
  lemma FieldPrecedence(d: Record, english: string, alias: string)
    ensures Get(d, english) != [] ==> Field(d, english, alias) == Get(d, english)
    ensures Get(d, english) == [] ==> Field(d, english, alias) == Get(d, alias)
  {
    var vs := [Get(d, english), Get(d, alias)];
    var r := FirstNonEmpty(vs);
    assert Field(d, english, alias) == r;
    assert vs[0] == Get(d, english) && vs[1] == Get(d, alias);
    if r != [] {
      var i :| 0 <= i < |vs| && vs[i] == r && forall j :: 0 <= j < i ==> vs[j] == [];
      assert i == 0 || vs[0] == [];
    }
  }

  /** The normalised triple a record names. */
  datatype Place = Place(city: string, country: string, continent: string)

  function CityOf(d: Record): string { Field(d, "city", "cidade") }
  function CountryOf(d: Record): string { Field(d, "country", "pais") }
  function ContinentOf(d: Record): string { Field(d, "continent", "continente") }

  /** City through `normalize_city`, country through `normalize_country`,
      continent only upper-cased, character by character. The city and the
      country come out empty exactly when they are blank; the continent
      only when it is empty, since it is never stripped. */
  function Normalize(d: Record): (p: Place)
    ensures Split(p.city) == CapitalizeAll(Split(CityOf(d))) && SingleSpaced(p.city)
    ensures p.city == [] <==> AllSpace(CityOf(d))
    ensures p.country in CanonicalNames || Lower(p.country) == AliasKey(CountryOf(d))
    ensures p.country == [] <==> AllSpace(CountryOf(d))
    ensures |p.continent| == |ContinentOf(d)|
    ensures forall i :: 0 <= i < |p.continent| ==> p.continent[i] == UpperChar(ContinentOf(d)[i])
  {
    Place(NormalizeCity(CityOf(d)), NormalizeCountry(CountryOf(d)), Upper(ContinentOf(d)))
  }

  /** `city and country and continent`. */
  predicate Complete(p: Place) {
    p.city != [] && p.country != [] && p.continent != []
  }

  /** A record passes the completeness check exactly when its city and
      country are not blank and its continent is not empty: the continent
      is never trimmed. */
  lemma CompleteIff(d: Record)
    ensures Complete(Normalize(d)) <==>
              !AllSpace(CityOf(d)) && !AllSpace(CountryOf(d)) && ContinentOf(d) != []
  {
  }

  /** A continent of a single space passes the completeness test and names a folder
      of its own. */
  lemma BlankContinentPasses(d: Record)
    requires !AllSpace(CityOf(d)) && !AllSpace(CountryOf(d)) && ContinentOf(d) == " "
    ensures Complete(Normalize(d)) && Normalize(d).continent == " "
  {
    assert Upper(" ")[0] == UpperChar(' ');
  }

  /** A path string. */
  type Path = string

  /** `os.path.join(a, b)` on POSIX: an absolute `b` replaces `a`;
      otherwise a "/" goes between them, unless `a` is empty or already
      ends in one. The contract fixes only the ends of the result; the
      separator is stated by `JoinPlain`. */
  function Join(a: Path, b: string): (r: Path)
    ensures |b| <= |r| && r[|r| - |b|..] == b
    ensures (b == [] || b[0] != '/') ==> |a| <= |r| && r[..|a|] == a
  {
    if b != [] && b[0] == '/' then b
    else if a == [] || a[|a| - 1] == '/' then a + b
    else a + "/" + b
  }

  /** `os.path.join(SOURCE_FOLDER, filename)`: the file name under the
      source folder, unless the name is itself an absolute path. */
  function SourcePath(filename: string): (r: Path)
    ensures filename != [] && filename[0] == '/' ==> r == filename
    ensures (filename == [] || filename[0] != '/') ==> r == SourceFolder + "/" + filename
  {
    Join(SourceFolder, filename)
  }

  /** `os.path.join(DESTINATION_FOLDER, continent, country, city, filename)`:
      the segments are joined from the left, so the path always ends with
      the file name. `DestinationLayout` spells out the whole path. */
  function DestinationPath(p: Place, filename: string): (r: Path)
    ensures |filename| <= |r| && r[|r| - |filename|..] == filename
  {
    Join(Join(Join(Join(DestinationFolder, p.continent), p.country), p.city), filename)
  }

  /** A path segment without a "/" of its own. */
  predicate Plain(s: string) {
    s != [] && forall i :: 0 <= i < |s| ==> s[i] != '/'
  }

  predicate PlainPlace(p: Place) {
    Plain(p.continent) && Plain(p.country) && Plain(p.city)
  }

  /** Joining a plain segment to a path that does not end in "/" puts one
      "/" between them, and the result does not end in "/" either. */
  lemma JoinPlain(a: Path, b: string)
    requires a != [] && a[|a| - 1] != '/' && Plain(b)
    ensures Join(a, b) == a + "/" + b
    ensures Join(a, b) != [] && Join(a, b)[|Join(a, b)| - 1] != '/'
  {
    assert (a + "/" + b)[|a + "/" + b| - 1] == b[|b| - 1];
  }

  /** With plain segments, the destination is the destination folder, the
      continent, the country, the city and the file name, in this order,
      separated by single slashes. */
  lemma DestinationLayout(p: Place, f: string)
    requires PlainPlace(p) && Plain(f)
    ensures DestinationPath(p, f) ==
              DestinationFolder + "/" + p.continent + "/" + p.country + "/" + p.city + "/" + f
  {
    var a := DestinationFolder;
    assert a[|a| - 1] != '/';
    JoinPlain(a, p.continent);
    JoinPlain(a + "/" + p.continent, p.country);
    JoinPlain(a + "/" + p.continent + "/" + p.country, p.city);
    JoinPlain(a + "/" + p.continent + "/" + p.country + "/" + p.city, f);
  }

  /** In `a + "/" + f` with a plain `f`, the "/" after `a` is the last one. */
  lemma LastSlash(a: string, f: string)
    requires Plain(f)
    ensures (a + "/" + f)[|a|] == '/'
    ensures forall k :: |a| < k < |a + "/" + f| ==> (a + "/" + f)[k] != '/'
  {
    var s := a + "/" + f;
    assert forall k :: |a| < k < |s| ==> s[k] == f[k - |a| - 1];
  }

  /** The last segment after a "/" is determined by the string. */
  lemma LastSegment(a: string, f: string, b: string, g: string)
    requires Plain(f) && Plain(g) && a + "/" + f == b + "/" + g
    ensures a == b && f == g
  {
    var s := a + "/" + f;
    LastSlash(a, f);
    LastSlash(b, g);
    assert |a| == |b|;
    assert a == s[..|a|] && b == s[..|b|];
    assert f == s[|a| + 1..] && g == s[|b| + 1..];
  }

  /** Places whose segments have no "/" of their own never share a
      destination with another place or another file name. */
  lemma DestinationInjective(p: Place, f: string, q: Place, g: string)
    requires PlainPlace(p) && Plain(f) && PlainPlace(q) && Plain(g)
    ensures DestinationPath(p, f) == DestinationPath(q, g) <==> p == q && f == g
  {
    DestinationLayout(p, f);
    DestinationLayout(q, g);
    var d := DestinationFolder;
    if DestinationPath(p, f) == DestinationPath(q, g) {
      LastSegment(d + "/" + p.continent + "/" + p.country + "/" + p.city, f,
                  d + "/" + q.continent + "/" + q.country + "/" + q.city, g);
      LastSegment(d + "/" + p.continent + "/" + p.country, p.city,
                  d + "/" + q.continent + "/" + q.country, q.city);
      LastSegment(d + "/" + p.continent, p.country, d + "/" + q.continent, q.country);
      LastSegment(d, p.continent, d, q.continent);
    }
  }

  /** A "/" inside a field is not kept apart from the separators: a city
      "Lima/1" in "Peru" and a city "1" in "Peru/Lima" share a destination. */
  lemma SlashCollision(p: Place, q: Place, f: string)
    requires p == Place("Lima/1", "Peru", "LATAM") && q == Place("1", "Peru/Lima", "LATAM") && f == "a.pdf"
    ensures Complete(p) && Complete(q) && p != q
    ensures DestinationPath(p, f) == DestinationPath(q, f)
  {
    var a := DestinationFolder + "/" + "LATAM";
    assert DestinationFolder[|DestinationFolder| - 1] != '/';
    assert Join(DestinationFolder, "LATAM") == a;
    assert Join(a, "Peru") == a + "/" + "Peru";
    assert Join(a, "Peru/Lima") == a + "/" + "Peru/Lima";
    assert Join(a + "/" + "Peru", "Lima/1") == a + "/" + "Peru" + "/" + "Lima/1";
    assert Join(a + "/" + "Peru/Lima", "1") == a + "/" + "Peru/Lima" + "/" + "1";
    assert a + "/" + "Peru" + "/" + "Lima/1" == a + "/" + "Peru/Lima" + "/" + "1";
  }

  /** The key of the run-wide `copied` set. */
  datatype CopyKey = CopyKey(src: Path, dst: Path)

  /** The key `(abspath(src), abspath(dst))` of a record, with `abspath`
      the identity: the source path and a destination that ends with the
      file name and, for slash-free fields, is the record's folder path. */
  function KeyFor(filename: string, d: Record): (k: CopyKey)
    ensures k.src == SourcePath(filename)
    ensures |filename| <= |k.dst| && k.dst[|k.dst| - |filename|..] == filename
    ensures PlainPlace(Normalize(d)) && Plain(filename) ==>
              k.dst == DestinationFolder + "/" + Normalize(d).continent + "/" + Normalize(d).country + "/" + Normalize(d).city + "/" + filename
  {
    var p := Normalize(d);
    if PlainPlace(p) && Plain(filename) then
      DestinationLayout(p, filename);
      CopyKey(SourcePath(filename), DestinationPath(p, filename))
    else
      CopyKey(SourcePath(filename), DestinationPath(p, filename))
  }

  /** Where a record sends the file: nowhere when the completeness test
      fails, that is when its city or country is blank or its continent
      empty; otherwise the key of its source and destination. */
  function Target(filename: string, d: Record): (t: Option<CopyKey>)
    ensures t.None? <==> AllSpace(CityOf(d)) || AllSpace(CountryOf(d)) || ContinentOf(d) == []
    ensures t.Some? ==> t.value.src == SourcePath(filename) && t.value.dst == DestinationPath(Normalize(d), filename)
  {
    if Complete(Normalize(d)) then Some(KeyFor(filename, d)) else None
  }

  /** Records naming the same place send the file to the same key. */
  lemma SamePlaceSameTarget(filename: string, d: Record, e: Record)
    requires Normalize(d) == Normalize(e)
    ensures Target(filename, d) == Target(filename, e)
  {
  }

  /** What happened to one record. */
  datatype Outcome =
    | Rejected
    | Skipped(key: CopyKey)
    | Placed(key: CopyKey)
    | Failed(key: CopyKey)

  /** One record, given its target: reject it if it has none, skip it if
      its key was already copied in this run, otherwise attempt the copy
      (`copyOk` is whether it succeeds) and remember the key only on
      success. */
  function Step(copied: set<CopyKey>, t: Option<CopyKey>, copyOk: bool): (r: (Outcome, set<CopyKey>))
    ensures r.0.Rejected? <==> t.None?
    ensures t.Some? ==> r.0.key == t.value
    ensures r.0.Skipped? <==> t.Some? && t.value in copied
    ensures r.0.Placed? ==> copyOk
    ensures r.0.Failed? ==> !copyOk
    ensures copied <= r.1 && (t.Some? ==> r.1 <= copied + {t.value})
    ensures r.1 != copied <==> r.0.Placed?
  {
    match t
    case None => (Rejected, copied)
    case Some(key) =>
      if key in copied then (Skipped(key), copied)
      else if copyOk then (Placed(key), copied + {key})
      else (Failed(key), copied)
  }

  /** Two records with the same key, the first copied: the second is
      skipped and copies nothing. Records naming the same place have the
      same key, and so may records naming different places (`SlashCollision`). */
  lemma DuplicateSkipped(copied: set<CopyKey>, filename: string, d: Record, e: Record, ok1: bool, ok2: bool)
    requires Target(filename, d) == Target(filename, e)
    requires Step(copied, Target(filename, d), ok1).0.Placed?
    ensures Step(Step(copied, Target(filename, d), ok1).1, Target(filename, e), ok2).0.Skipped?
  {
  }

  /** A failed copy is forgotten: a later record with the same key is
      tried again. */
  lemma FailedRetried(copied: set<CopyKey>, filename: string, d: Record, e: Record, ok: bool)
    requires Target(filename, d) == Target(filename, e)
    requires Step(copied, Target(filename, d), false).0.Failed?
    ensures Step(Step(copied, Target(filename, d), false).1, Target(filename, e), ok).0 ==
              (if ok then Placed(KeyFor(filename, e)) else Failed(KeyFor(filename, e)))
  {
  }

  /** The keys of the records copied, in a sequence of outcomes. */
  function PlacedKeys(os: seq<Outcome>): (r: set<CopyKey>)
    ensures forall k :: k in r <==> exists i :: 0 <= i < |os| && os[i].Placed? && os[i].key == k
  {
    if os == [] then {}
    else
      var front := os[..|os| - 1];
      var r := PlacedKeys(front);
      assert forall i :: 0 <= i < |front| ==> front[i] == os[i];
      var last := os[|os| - 1];
      if last.Placed? then r + {last.key} else r
  }

  lemma PlacedKeysSnoc(os: seq<Outcome>, o: Outcome)
    ensures PlacedKeys(os + [o]) == PlacedKeys(os) + (if o.Placed? then {o.key} else {})
  {
    assert (os + [o])[..|os|] == os;
  }

  /** Outcome `i` is rejected exactly when target `i` is missing, and
      carries target `i`'s key otherwise. */
  predicate Aligned(targets: seq<Option<CopyKey>>, outcomes: seq<Outcome>)
    requires |outcomes| <= |targets|
  {
    forall i :: 0 <= i < |outcomes| ==>
      (outcomes[i].Rejected? <==> targets[i].None?) &&
      (targets[i].Some? ==> outcomes[i].key == targets[i].value)
  }

  /** A record with a target is skipped exactly when its key was copied
      before it: initially or by an earlier record. */
  predicate SkipRule(copied0: set<CopyKey>, targets: seq<Option<CopyKey>>, outcomes: seq<Outcome>)
    requires |outcomes| <= |targets|
  {
    forall i :: 0 <= i < |outcomes| && targets[i].Some? ==>
      (outcomes[i].Skipped? <==> targets[i].value in copied0 + PlacedKeys(outcomes[..i]))
  }

  /** A record with a target that is not skipped is copied exactly when
      its copy succeeds. */
  predicate CopyRule(targets: seq<Option<CopyKey>>, copyOk: seq<bool>, outcomes: seq<Outcome>)
    requires |outcomes| <= |targets| && |outcomes| <= |copyOk|
  {
    forall i :: 0 <= i < |outcomes| && targets[i].Some? && !outcomes[i].Skipped? ==>
      (outcomes[i].Placed? <==> copyOk[i])
  }

  /** No key copied twice, and none that was copied before. */
  predicate AtMostOnce(copied0: set<CopyKey>, outcomes: seq<Outcome>) {
    (forall i :: 0 <= i < |outcomes| && outcomes[i].Placed? ==> outcomes[i].key !in copied0) &&
    (forall i, j :: 0 <= i < j < |outcomes| && outcomes[i].Placed? && outcomes[j].Placed? ==>
       outcomes[i].key != outcomes[j].key)
  }

  lemma AlignedStep(targets: seq<Option<CopyKey>>, before: seq<Outcome>, copied: set<CopyKey>, ok: bool)
    requires |before| < |targets| && Aligned(targets, before)
    ensures Aligned(targets, before + [Step(copied, targets[|before|], ok).0])
  {
  }

  lemma SkipStep(copied0: set<CopyKey>, targets: seq<Option<CopyKey>>, before: seq<Outcome>, ok: bool)
    requires |before| < |targets| && SkipRule(copied0, targets, before)
    ensures SkipRule(copied0, targets, before + [Step(copied0 + PlacedKeys(before), targets[|before|], ok).0])
  {
    var after := before + [Step(copied0 + PlacedKeys(before), targets[|before|], ok).0];
    assert after[..|before|] == before;
    assert forall i :: 0 <= i < |before| ==> after[i] == before[i] && after[..i] == before[..i];
  }

  lemma CopyStep(targets: seq<Option<CopyKey>>, copyOk: seq<bool>, before: seq<Outcome>, copied: set<CopyKey>)
    requires |before| < |targets| && |before| < |copyOk| && CopyRule(targets, copyOk, before)
    ensures CopyRule(targets, copyOk, before + [Step(copied, targets[|before|], copyOk[|before|]).0])
  {
  }

  lemma OnceStep(copied0: set<CopyKey>, targets: seq<Option<CopyKey>>, before: seq<Outcome>, ok: bool)
    requires |before| < |targets| && AtMostOnce(copied0, before)
    ensures AtMostOnce(copied0, before + [Step(copied0 + PlacedKeys(before), targets[|before|], ok).0])
  {
    var o := Step(copied0 + PlacedKeys(before), targets[|before|], ok).0;
    var after := before + [o];
    if o.Placed? {
      assert forall i :: 0 <= i < |before| && before[i].Placed? ==> before[i].key in PlacedKeys(before);
    }
    assert forall i :: 0 <= i < |before| ==> after[i] == before[i];
  }

  /** The records of one file, reduced to their targets, with the
      run-wide set of copied keys before and after. Every record gets an
      outcome; a rejected one stops nothing. A record is skipped exactly
      when its key was copied before it, in this file or earlier in the
      run; a copy is attempted otherwise, and remembered only if it
      succeeds, so each key is copied at most once. */
  method CopyAll(copied0: set<CopyKey>, targets: seq<Option<CopyKey>>, copyOk: seq<bool>)
    returns (outcomes: seq<Outcome>, copied: set<CopyKey>)
    requires |copyOk| == |targets|
    ensures |outcomes| == |targets|
    ensures copied == copied0 + PlacedKeys(outcomes)
    ensures Aligned(targets, outcomes)
    ensures SkipRule(copied0, targets, outcomes)
    ensures CopyRule(targets, copyOk, outcomes)
    ensures AtMostOnce(copied0, outcomes)
  {
    outcomes := [];
    copied := copied0;
    while |outcomes| < |targets|
      invariant |outcomes| <= |targets|
      invariant copied == copied0 + PlacedKeys(outcomes)
      invariant Aligned(targets, outcomes)
      invariant SkipRule(copied0, targets, outcomes)
      invariant CopyRule(targets, copyOk, outcomes)
      invariant AtMostOnce(copied0, outcomes)
    {
      var n := |outcomes|;
      var step := Step(copied, targets[n], copyOk[n]);
      AlignedStep(targets, outcomes, copied, copyOk[n]);
      SkipStep(copied0, targets, outcomes, copyOk[n]);
      CopyStep(targets, copyOk, outcomes, copied);
      OnceStep(copied0, targets, outcomes, copyOk[n]);
      PlacedKeysSnoc(outcomes, step.0);
      outcomes := outcomes + [step.0];
      copied := step.1;
    }
  }

  /** The target of every record, in order. */
  function Targets(filename: string, records: seq<Record>): (ts: seq<Option<CopyKey>>)
    ensures |ts| == |records|
    ensures forall i :: 0 <= i < |records| ==> ts[i] == Target(filename, records[i])
  {
    seq(|records|, i requires 0 <= i < |records| => Target(filename, records[i]))
  }

  /** The loop over the records of one file (`for d in destinations`):
      `CopyAll` on the records' targets. */
  method PlaceRecords(copied0: set<CopyKey>, filename: string, records: seq<Record>, copyOk: seq<bool>)
    returns (outcomes: seq<Outcome>, copied: set<CopyKey>)
    requires |copyOk| == |records|
    ensures |outcomes| == |records|
    ensures copied == copied0 + PlacedKeys(outcomes)
    ensures Aligned(Targets(filename, records), outcomes)
    ensures SkipRule(copied0, Targets(filename, records), outcomes)
    ensures CopyRule(Targets(filename, records), copyOk, outcomes)
    ensures AtMostOnce(copied0, outcomes)
  {
    outcomes, copied := CopyAll(copied0, Targets(filename, records), copyOk);
  }

  /** One entry of the source folder, with what the outside world gives
      for it: the text of its first pages, the records of the classifier's
      reply (empty when the reply is not valid JSON), and whether each
      record's copy would succeed. */
  datatype Listing = Listing(name: string, text: string, records: seq<Record>, copyOk: seq<bool>)

  /** What the folder scan did with one file. */
  datatype FileOutcome =
    | NotPdfFile
    | IgnoredFile
    | NoText
    | NoDestinations
    | Processed(outcomes: seq<Outcome>)

  /** The keys copied while processing the files, in order. */
  function AllPlaced(rs: seq<FileOutcome>): set<CopyKey> {
    if rs == [] then {}
    else
      var last := rs[|rs| - 1];
      AllPlaced(rs[..|rs| - 1]) + (if last.Processed? then PlacedKeys(last.outcomes) else {})
  }

  /** The per-file decision ahead of the records: the two name filters,
      then an empty text, then an empty reply. */
  function Triage(f: Listing, keywords: seq<string>): (r: FileOutcome)
    ensures r.Processed? ==> r.outcomes == []
    ensures !r.Processed? <==>
              Select(f.name, keywords) != Taken || AllSpace(f.text) || f.records == []
  {
    match Select(f.name, keywords)
    case NotPdf => NotPdfFile
    case Ignored => IgnoredFile
    case Taken =>
      if AllSpace(f.text) then NoText
      else if f.records == [] then NoDestinations
      else Processed([])
  }

  /** What one file of the folder loop comes to, given the keys copied
      before it in the run: the triage outcome when its records are not
      processed; otherwise one outcome per record, obeying the rules of
      `CopyAll` against those keys. */
  predicate FileRule(f: Listing, keywords: seq<string>, before: set<CopyKey>, r: FileOutcome) {
    if r.Processed? then
      && Triage(f, keywords).Processed?
      && |f.copyOk| == |f.records| == |r.outcomes|
      && Aligned(Targets(f.name, f.records), r.outcomes)
      && SkipRule(before, Targets(f.name, f.records), r.outcomes)
      && CopyRule(Targets(f.name, f.records), f.copyOk, r.outcomes)
      && AtMostOnce(before, r.outcomes)
    else
      r == Triage(f, keywords)
  }

  /** One file of the folder loop, continuing the run-wide `copied` set:
      it is processed exactly when triage lets it through, its records
      then follow the rules of `CopyAll`, and the set grows by exactly
      the keys it placed. */
  method OrganizeFile(copied0: set<CopyKey>, f: Listing, keywords: seq<string>)
    returns (r: FileOutcome, copied: set<CopyKey>)
    requires |f.copyOk| == |f.records|
    ensures r.Processed? <==> Triage(f, keywords).Processed?
    ensures FileRule(f, keywords, copied0, r)
    ensures copied == copied0 + (if r.Processed? then PlacedKeys(r.outcomes) else {})
  {
    r := Triage(f, keywords);
    copied := copied0;
    if r.Processed? {
      var outcomes;
      outcomes, copied := PlaceRecords(copied0, f.name, f.records, f.copyOk);
      r := Processed(outcomes);
    }
  }

  /** Every file so far came to what `FileRule` says, against the keys
      copied before it. */
  predicate FolderRules(files: seq<Listing>, keywords: seq<string>, results: seq<FileOutcome>)
    requires |results| <= |files|
  {
    results == [] ||
      var n := |results| - 1;
      FolderRules(files, keywords, results[..n]) &&
      FileRule(files[n], keywords, AllPlaced(results[..n]), results[n])
  }

  /** `FolderRules` file by file. */
  lemma {:induction false} FolderRulesAt(files: seq<Listing>, keywords: seq<string>, results: seq<FileOutcome>, i: nat)
    requires |results| <= |files| && FolderRules(files, keywords, results) && i < |results|
    ensures FileRule(files[i], keywords, AllPlaced(results[..i]), results[i])
    decreases |results|
  {
    var n := |results| - 1;
    if i < n {
      var front := results[..n];
      FolderRulesAt(files, keywords, front, i);
      assert front[..i] == results[..i] && front[i] == results[i];
    }
  }

  lemma AllPlacedSnoc(rs: seq<FileOutcome>, r: FileOutcome)
    ensures AllPlaced(rs + [r]) == AllPlaced(rs) + (if r.Processed? then PlacedKeys(r.outcomes) else {})
  {
    assert (rs + [r])[..|rs|] == rs;
  }

  lemma FolderStep(files: seq<Listing>, keywords: seq<string>, results: seq<FileOutcome>, r: FileOutcome)
    requires |results| < |files| && FolderRules(files, keywords, results)
    requires FileRule(files[|results|], keywords, AllPlaced(results), r)
    ensures FolderRules(files, keywords, results + [r])
  {
    assert (results + [r])[..|results|] == results;
  }

  /** The folder loop of `main`: every file comes to what `FileRule` says
      against the keys copied before it, the copied set is exactly the
      keys placed along the way, and with the configured ignore keywords
      no file gets past the keyword rule, so nothing is copied. */
  method OrganizeFolder(files: seq<Listing>, keywords: seq<string>)
    returns (results: seq<FileOutcome>, copied: set<CopyKey>)
    requires forall i :: 0 <= i < |files| ==> |files[i].copyOk| == |files[i].records|
    ensures |results| == |files|
    ensures FolderRules(files, keywords, results)
    ensures forall i :: 0 <= i < |results| ==> FileRule(files[i], keywords, AllPlaced(results[..i]), results[i])
    ensures copied == AllPlaced(results)
    ensures keywords == IgnoreKeywords ==> copied == {}
  {
    results := [];
    copied := {};
    while |results| < |files|
      invariant |results| <= |files|
      invariant FolderRules(files, keywords, results)
      invariant copied == AllPlaced(results)
      invariant keywords == IgnoreKeywords ==> copied == {}
    {
      var f := files[|results|];
      var r;
      r, copied := OrganizeFile(copied, f, keywords);
      if keywords == IgnoreKeywords {
        NothingTaken(f.name);
      }
      FolderStep(files, keywords, results, r);
      AllPlacedSnoc(results, r);
      results := results + [r];
    }
    forall i | 0 <= i < |results| ensures FileRule(files[i], keywords, AllPlaced(results[..i]), results[i]) {
      FolderRulesAt(files, keywords, results, i);
    }
  }

  /** The keys placed for file `i` are among the keys placed in the run. */
  lemma {:induction false} AllPlacedHas(rs: seq<FileOutcome>, i: nat)
    requires i < |rs| && rs[i].Processed?
    ensures PlacedKeys(rs[i].outcomes) <= AllPlaced(rs)
    decreases |rs|
  {
    if i < |rs| - 1 {
      var front := rs[..|rs| - 1];
      assert front[i] == rs[i];
      AllPlacedHas(front, i);
    }
  }

  /** Across the whole run no key is copied twice: a record placed for a
      later file never has the key of one placed for an earlier file. */
  lemma RunAtMostOnce(files: seq<Listing>, keywords: seq<string>, results: seq<FileOutcome>,
                      i: nat, j: nat, a: nat, b: nat)
    requires |results| == |files| && FolderRules(files, keywords, results)
    requires i < j < |results| && results[i].Processed? && results[j].Processed?
    requires a < |results[i].outcomes| && results[i].outcomes[a].Placed?
    requires b < |results[j].outcomes| && results[j].outcomes[b].Placed?
    ensures results[i].outcomes[a].key != results[j].outcomes[b].key
  {
    var before := results[..j];
    assert before[i] == results[i];
    FolderRulesAt(files, keywords, results, j);
    AllPlacedHas(before, i);
    assert results[i].outcomes[a].key in PlacedKeys(results[i].outcomes);
    assert FileRule(files[j], keywords, AllPlaced(before), results[j]);
  }
}

=== FILE: selection.dfy ===
/**
 Which files of the source folder are processed: a file is taken only if
 its lower-cased name ends in ".pdf" and none of the ignore keywords occurs
 in that lower-cased name.
 */
module Selection {
  import opened Ascii

  /** `IGNORE_KEYWORDS` as configured: two empty strings. */
  const IgnoreKeywords: seq<string> := ["", ""]

  const PdfSuffix: string := ".pdf"

  /** `s.endswith(suffix)`. */
  predicate EndsWith(s: string, suffix: string) {
    |suffix| <= |s| && s[|s| - |suffix|..] == suffix
  }

  /** `k` occurs in `s` at index `i`. */
  predicate OccursAt(s: string, k: string, i: nat) {
    i + |k| <= |s| && s[i..i + |k|] == k
  }

  /** `k in s`, scanning from the left. The empty string occurs in every
      string, at index 0. */
  function Contains(s: string, k: string): (r: bool)
    ensures r <==> exists i :: 0 <= i <= |s| && OccursAt(s, k, i)
    decreases |s|
  {
    if |s| < |k| then
      false
    else if s[..|k|] == k then
      assert OccursAt(s, k, 0);
      true
    else
      assert !OccursAt(s, k, 0);
      OccursLater(s, k);
      Contains(s[1..], k)
  }

  /** An occurrence after the first character of `s` is an occurrence in
      the rest of `s`, one index earlier. */
  lemma OccursLater(s: string, k: string)
    requires s != []
    ensures (exists i :: 1 <= i <= |s| && OccursAt(s, k, i)) <==>
            (exists i :: 0 <= i <= |s[1..]| && OccursAt(s[1..], k, i))
  {
    if exists i :: 1 <= i <= |s| && OccursAt(s, k, i) {
      var i :| 1 <= i <= |s| && OccursAt(s, k, i);
      assert s[1..][i - 1..i - 1 + |k|] == s[i..i + |k|];
      assert OccursAt(s[1..], k, i - 1);
    }
    if exists i :: 0 <= i <= |s[1..]| && OccursAt(s[1..], k, i) {
      var i :| 0 <= i <= |s[1..]| && OccursAt(s[1..], k, i);
      assert s[1..][i..i + |k|] == s[i + 1..i + 1 + |k|];
      assert OccursAt(s, k, i + 1);
    }
  }

  /** `any(k in name for k in keywords)`. */
  function AnyContains(name: string, keywords: seq<string>): (r: bool)
    ensures r <==> exists j :: 0 <= j < |keywords| && Contains(name, keywords[j])
  {
    if keywords == [] then false
    else Contains(name, keywords[0]) || AnyContains(name, keywords[1..])
  }

  /** What the folder scan decides about one file name. */
  datatype Verdict = NotPdf | Ignored | Taken

  /** The two filters of the folder scan, in their order: the extension
      test first, then the keyword rule. */
  function Select(filename: string, keywords: seq<string>): (v: Verdict)
    ensures v == Taken <==>
              EndsWith(Lower(filename), PdfSuffix) &&
              forall j :: 0 <= j < |keywords| ==> !Contains(Lower(filename), keywords[j])
    ensures v == NotPdf <==> !EndsWith(Lower(filename), PdfSuffix)
  {
    var name := Lower(filename);
    if !EndsWith(name, PdfSuffix) then NotPdf
    else if AnyContains(name, keywords) then Ignored
    else Taken
  }

  /** An empty keyword occurs in every name, so with the configured
      keywords no file is ever taken: every PDF is ignored. */
  lemma NothingTaken(filename: string)
    ensures Select(filename, IgnoreKeywords) != Taken
    ensures EndsWith(Lower(filename), PdfSuffix) ==> Select(filename, IgnoreKeywords) == Ignored
  {
    assert OccursAt(Lower(filename), IgnoreKeywords[0], 0);
  }

  /** The file filter ignores letter case: both the extension test and the
      keyword test look only at the lower-cased name. */
  lemma PdfCaseInsensitive(a: string, b: string, keywords: seq<string>)
    requires Lower(a) == Lower(b)
    ensures Select(a, keywords) == Select(b, keywords)
  {
  }
}

=== FILE: words.dfy ===
/**
 Whitespace handling of Python strings: `str.strip()` with no argument,
 `str.split()` with no argument, and `" ".join(words)`.
 */
module Words {
  import opened Ascii

  predicate AllSpace(s: string) {
    forall i :: 0 <= i < |s| ==> IsSpace(s[i])
  }

  predicate NoSpace(s: string) {
    forall i :: 0 <= i < |s| ==> !IsSpace(s[i])
  }

  /** What `str.split()` can produce: a non-empty run of non-whitespace. */
  predicate IsWord(w: string) {
    w != [] && NoSpace(w)
  }

  predicate AllWords(ws: seq<string>) {
    forall i :: 0 <= i < |ws| ==> IsWord(ws[i])
  }

  /** Neither end of `s` is whitespace. */
  predicate Stripped(s: string) {
    s == [] || (!IsSpace(s[0]) && !IsSpace(s[|s| - 1]))
  }

  /** `r` sits in `s` at index `i`, and everything before and after it is whitespace. */
  ghost predicate Margins(s: string, i: nat, r: string) {
    && i + |r| <= |s|
    && s[i..i + |r|] == r
    && (forall j :: 0 <= j < i ==> IsSpace(s[j]))
    && (forall j :: i + |r| <= j < |s| ==> IsSpace(s[j]))
  }

  /** Length of the leading whitespace run of `s`. */
  function SpanSpace(s: string): (n: nat)
    ensures n <= |s|
    ensures forall j :: 0 <= j < n ==> IsSpace(s[j])
    ensures n < |s| ==> !IsSpace(s[n])
  {
    if s != [] && IsSpace(s[0]) then 1 + SpanSpace(s[1..]) else 0
  }

  /** Length of the trailing whitespace run of `s`. */
  function SpanSpaceEnd(s: string): (n: nat)
    ensures n <= |s|
    ensures forall j :: |s| - n <= j < |s| ==> IsSpace(s[j])
    ensures n < |s| ==> !IsSpace(s[|s| - n - 1])
  {
    if s != [] && IsSpace(s[|s| - 1]) then 1 + SpanSpaceEnd(s[..|s| - 1]) else 0
  }

  /** Length of the leading non-whitespace run of `s`. */
  function SpanWord(s: string): (n: nat)
    ensures n <= |s|
    ensures forall j :: 0 <= j < n ==> !IsSpace(s[j])
    ensures n < |s| ==> IsSpace(s[n])
  {
    if s != [] && !IsSpace(s[0]) then 1 + SpanWord(s[1..]) else 0
  }

  /** The contract of `SpanSpace` determines it. */
  lemma SpanSpaceIs(s: string, n: nat)
    requires n <= |s|
    requires forall j :: 0 <= j < n ==> IsSpace(s[j])
    requires n < |s| ==> !IsSpace(s[n])
    ensures SpanSpace(s) == n
  {
  }

  /** The contract of `SpanWord` determines it. */
  lemma SpanWordIs(s: string, n: nat)
    requires n <= |s|
    requires forall j :: 0 <= j < n ==> !IsSpace(s[j])
    requires n < |s| ==> IsSpace(s[n])
    ensures SpanWord(s) == n
  {
  }

  /** `str.strip()`: the result is what is left of `s` once the whitespace at
      both ends is cut, and it is empty exactly when `s` is all whitespace. */
  function Strip(s: string): (r: string)
    ensures Stripped(r)
    ensures Margins(s, SpanSpace(s), r)
    ensures r == [] <==> AllSpace(s)
  {
    var k := SpanSpace(s);
    var e := SpanSpaceEnd(s);
    if k == |s| then []
    else
      assert !IsSpace(s[k]);
      s[k..|s| - e]
  }

  /** `Strip` is determined by its contract: a string with no whitespace at
      its ends and only whitespace around it in `s` is the stripped `s`. */
  lemma StripUnique(s: string, i: nat, r: string)
    requires Stripped(r) && Margins(s, i, r)
    ensures Strip(s) == r
  {
    if r != [] {
      assert s[i] == r[0] && s[i + |r| - 1] == r[|r| - 1];
      SpanSpaceIs(s, i);
      var r0 := Strip(s);
      assert s[i + |r0| - 1] == r0[|r0| - 1];
    }
  }

  /** Whitespace added around a string is exactly what `Strip` removes. */
  lemma StripPadded(a: string, t: string, b: string)
    requires AllSpace(a) && AllSpace(b)
    ensures Strip(a + t + b) == Strip(t)
  {
    var s := a + t + b;
    var r := Strip(t);
    var k := SpanSpace(t);
    assert s[|a| + k..|a| + k + |r|] == t[k..k + |r|];
    forall j | 0 <= j < |a| + k ensures IsSpace(s[j]) {
      if j >= |a| { assert s[j] == t[j - |a|]; }
    }
    forall j | |a| + k + |r| <= j < |s| ensures IsSpace(s[j]) {
      if j < |a| + |t| { assert s[j] == t[j - |a|]; } else { assert s[j] == b[j - |a| - |t|]; }
    }
    StripUnique(s, |a| + k, r);
  }

  /** A string with no whitespace at its ends is its own `Strip`. */
  lemma StripStripped(s: string)
    requires Stripped(s)
    ensures Strip(s) == s
  {
    assert s[0..|s|] == s;
    StripUnique(s, 0, s);
  }

  /** `str.split()` with no separator: the maximal runs of non-whitespace,
      in order; there are none exactly when `s` is all whitespace. */
  function Split(s: string): (ws: seq<string>)
    ensures AllWords(ws)
    ensures ws == [] <==> AllSpace(s)
    decreases |s|
  {
    var k := SpanSpace(s);
    if k == |s| then []
    else
      var t := s[k..];
      var n := SpanWord(t);
      assert !IsSpace(t[0]);
      [t[..n]] + Split(t[n..])
  }

  /** `" ".join(ws)`. */
  function JoinWords(ws: seq<string>): string
  {
    if ws == [] then ""
    else if |ws| == 1 then ws[0]
    else ws[0] + " " + JoinWords(ws[1..])
  }

  /** One whitespace character in front of a string does not change its split. */
  lemma SplitSkipOne(c: char, u: string)
    requires IsSpace(c)
    ensures Split([c] + u) == Split(u)
  {
    var s := [c] + u;
    assert s[1..] == u;
    SpanSpaceIs(s, 1 + SpanSpace(u));
    if !AllSpace(u) {
      var k := SpanSpace(u);
      assert s[k + 1..] == u[k..];
    } else {
      assert AllSpace(s);
    }
  }

  /** Whitespace in front of a string does not change its split. */
  lemma {:induction false} SplitSkipSpace(a: string, u: string)
    requires AllSpace(a)
    ensures Split(a + u) == Split(u)
    decreases |a|
  {
    if a != [] {
      assert a + u == [a[0]] + (a[1..] + u);
      SplitSkipOne(a[0], a[1..] + u);
      SplitSkipSpace(a[1..], u);
    } else {
      assert a + u == u;
    }
  }

  /** A word followed by whitespace (or nothing) is split off first. */
  lemma SplitWordFirst(w: string, u: string)
    requires IsWord(w)
    requires u == [] || IsSpace(u[0])
    ensures Split(w + u) == [w] + Split(u)
  {
    var s := w + u;
    SpanSpaceIs(s, 0);
    assert s[0..] == s;
    SpanWordIs(s, |w|);
    assert s[..|w|] == w && s[|w|..] == u;
  }

  /** A single word splits to itself. */
  lemma SplitWord(w: string)
    requires IsWord(w)
    ensures Split(w) == [w]
  {
    SpanSpaceIs(w, 0);
    SpanWordIs(w[0..], |w|);
    assert w[0..] == w && w[..|w|] == w;
    assert Split(w[|w|..]) == [];
  }

  /** A word, one space and a rest split into the word and the rest's words. */
  lemma SplitWordSpace(w: string, rest: string)
    requires IsWord(w)
    ensures Split(w + ([' '] + rest)) == [w] + Split(rest)
  {
    SplitWordFirst(w, [' '] + rest);
    SplitSkipOne(' ', rest);
  }

  /** The step of `SplitJoin`: the first word is split off `" ".join(ws)`,
      and the rest is the join of the remaining words. */
  lemma SplitJoinStep(ws: seq<string>)
    requires |ws| > 1 && IsWord(ws[0])
    ensures Split(JoinWords(ws)) == [ws[0]] + Split(JoinWords(ws[1..]))
  {
    assert JoinWords(ws) == ws[0] + ([' '] + JoinWords(ws[1..]));
    SplitWordSpace(ws[0], JoinWords(ws[1..]));
  }

  lemma AllWordsTail(ws: seq<string>)
    requires AllWords(ws) && ws != []
    ensures IsWord(ws[0]) && AllWords(ws[1..]) && ws == [ws[0]] + ws[1..]
  {
    assert forall i :: 0 <= i < |ws| - 1 ==> ws[1..][i] == ws[i + 1];
  }

  /** `split` undoes `join` on words: the words of `" ".join(ws)` are `ws`. */
  lemma {:induction false} SplitJoin(ws: seq<string>)
    requires AllWords(ws)
    ensures Split(JoinWords(ws)) == ws
  {
    if |ws| == 1 {
      SplitWord(ws[0]);
    } else if |ws| > 1 {
      AllWordsTail(ws);
      SplitJoin(ws[1..]);
      SplitJoinStep(ws);
    }
  }

  /** A string with a word in it is its leading whitespace, its first
      word, and a rest that is empty or starts with whitespace. */
  lemma FirstWordPieces(t: string)
    requires !AllSpace(t)
    ensures var k := SpanSpace(t); var ts := t[k..]; var n := SpanWord(ts);
      && AllSpace(t[..k]) && IsWord(ts[..n])
      && (ts[n..] == [] || IsSpace(ts[n..][0]))
  {
    var k := SpanSpace(t);
    var ts := t[k..];
    var n := SpanWord(ts);
    assert !IsSpace(ts[0]);
    assert NoSpace(ts[..n]) by {
      forall j | 0 <= j < n ensures !IsSpace(ts[..n][j]) { assert ts[..n][j] == ts[j]; }
    }
    assert AllSpace(t[..k]) by {
      forall j | 0 <= j < k ensures IsSpace(t[..k][j]) { assert t[..k][j] == t[j]; }
    }
    if n < |ts| { assert ts[n..][0] == ts[n]; }
  }

  /** Cutting a string at `i` and then its rest at `j` gives three pieces. */
  lemma ThreePieces(t: string, i: nat, j: nat)
    requires i <= |t| && j <= |t| - i
    ensures t == t[..i] + (t[i..][..j] + t[i..][j..])
  {
    assert t[i..][..j] + t[i..][j..] == t[i..];
    assert t[..i] + t[i..] == t;
  }

  lemma Assoc(a: string, w: string, u: string, b: string)
    ensures (a + (w + u)) + b == a + (w + (u + b))
  {
  }

  /** Whitespace appended to a string that is empty or starts with
      whitespace leaves it so. */
  lemma AppendSpace(u: string, b: string)
    requires u == [] || IsSpace(u[0])
    requires AllSpace(b)
    ensures u + b == [] || IsSpace((u + b)[0])
  {
    if u == [] { assert u + b == b; }
  }

  /** Leading whitespace, a word, and then whitespace or nothing: the word
      is the first of the split. */
  lemma SplitPrefix(a: string, w: string, u: string)
    requires AllSpace(a) && IsWord(w) && (u == [] || IsSpace(u[0]))
    ensures Split(a + (w + u)) == [w] + Split(u)
  {
    SplitSkipSpace(a, w + u);
    SplitWordFirst(w, u);
  }

  /** The step of `SplitTrailingSpace`, on the pieces of `t`: whitespace,
      a word, and the rest. */
  lemma SplitAround(a: string, w: string, u: string, b: string)
    requires AllSpace(a) && IsWord(w) && (u == [] || IsSpace(u[0])) && AllSpace(b)
    requires Split(u + b) == Split(u)
    ensures Split((a + (w + u)) + b) == Split(a + (w + u))
  {
    Assoc(a, w, u, b);
    AppendSpace(u, b);
    SplitPrefix(a, w, u + b);
    SplitPrefix(a, w, u);
  }

  /** Whitespace after a string does not change its split. */
  lemma {:induction false} SplitTrailingSpace(t: string, b: string)
    requires AllSpace(b)
    ensures Split(t + b) == Split(t)
    decreases |t|
  {
    if !AllSpace(t) {
      var k := SpanSpace(t);
      var ts := t[k..];
      var n := SpanWord(ts);
      FirstWordPieces(t);
      ThreePieces(t, k, n);
      SplitTrailingSpace(ts[n..], b);
      SplitAround(t[..k], ts[..n], ts[n..], b);
    } else {
      assert AllSpace(t + b);
    }
  }

  /** A string is the whitespace before `r`, `r`, and the whitespace after. */
  lemma MarginPieces(s: string, i: nat, r: string)
    requires Margins(s, i, r)
    ensures AllSpace(s[..i]) && AllSpace(s[i + |r|..])
    ensures s == s[..i] + (r + s[i + |r|..])
  {
    var a, c := s[..i], s[i + |r|..];
    assert forall j :: 0 <= j < |a| ==> a[j] == s[j];
    assert forall j :: 0 <= j < |c| ==> c[j] == s[i + |r| + j];
    assert s[i..] == r + c;
    assert s == a + s[i..];
  }

  /** `strip()` removes only whitespace: every other character of the
      string is still there. */
  lemma StripKeepsNonSpace(s: string, c: char)
    requires !IsSpace(c) && c in s
    ensures c in Strip(s)
  {
    var r := Strip(s);
    var k := SpanSpace(s);
    assert Margins(s, k, r);
    var j :| 0 <= j < |s| && s[j] == c;
    assert k <= j < k + |r|;
    assert s[k..k + |r|][j - k] == c;
  }

  /** Splitting a string is splitting its stripped form, as `city.strip().split()`
      relies on. */
  lemma SplitStrip(s: string)
    ensures Split(Strip(s)) == Split(s)
  {
    var r := Strip(s);
    var i := SpanSpace(s);
    MarginPieces(s, i, r);
    SplitSkipSpace(s[..i], r + s[i + |r|..]);
    SplitTrailingSpace(r, s[i + |r|..]);
  }

  /** No two whitespace characters in a row. */
  ghost predicate NoDoubleSpace(s: string) {
    forall i, j :: 0 <= i < j < |s| && j == i + 1 ==> !IsSpace(s[i]) || !IsSpace(s[j])
  }

  /** The shape of `" ".join(ws)` for words: no whitespace at either end,
      every whitespace character a plain space, and no two in a row. */
  ghost predicate SingleSpaced(s: string) {
    && Stripped(s)
    && NoDoubleSpace(s)
    && (forall i :: 0 <= i < |s| && IsSpace(s[i]) ==> s[i] == ' ')
  }

  /** `w + " " + rest` is single-spaced when `w` is a word and `rest` is a
      non-empty single-spaced string. */
  lemma SingleSpacedJoin(w: string, rest: string)
    requires IsWord(w) && rest != [] && SingleSpaced(rest)
    ensures SingleSpaced(w + " " + rest)
  {
    var s := w + " " + rest;
    assert s[0] == w[0] && s[|s| - 1] == rest[|rest| - 1];
    forall i, j | 0 <= i < j < |s| && j == i + 1 ensures !IsSpace(s[i]) || !IsSpace(s[j]) {
      if i < |w| {
        assert s[i] == w[i];
      } else if i == |w| {
        assert s[j] == rest[0];
      } else {
        assert s[i] == rest[i - |w| - 1] && s[j] == rest[j - |w| - 1];
      }
    }
    forall i | 0 <= i < |s| && IsSpace(s[i]) ensures s[i] == ' ' {
      if i > |w| {
        assert s[i] == rest[i - |w| - 1];
      }
    }
  }

  /** `" ".join(ws)` of words is single-spaced, and empty only for no words. */
  lemma {:induction false} JoinWordsShape(ws: seq<string>)
    requires AllWords(ws)
    ensures SingleSpaced(JoinWords(ws))
    ensures JoinWords(ws) == [] <==> ws == []
  {
    if |ws| == 1 {
      assert IsWord(ws[0]);
    } else if |ws| > 1 {
      AllWordsTail(ws);
      JoinWordsShape(ws[1..]);
      SingleSpacedJoin(ws[0], JoinWords(ws[1..]));
    }
  }

  /** What follows the first word and its space in a single-spaced string
      is single-spaced again. */
  lemma SingleSpacedRest(s: string, n: nat)
    requires SingleSpaced(s) && n < |s| && IsSpace(s[n])
    ensures n + 1 < |s| && SingleSpaced(s[n + 1..])
  {
    var rest := s[n + 1..];
    assert !IsSpace(s[n + 1]);
    assert rest[0] == s[n + 1] && rest[|rest| - 1] == s[|s| - 1];
    forall i, j | 0 <= i < j < |rest| && j == i + 1 ensures !IsSpace(rest[i]) || !IsSpace(rest[j]) {
      assert rest[i] == s[n + 1 + i] && rest[j] == s[n + 1 + j];
    }
  }

  lemma DropCons(s: string, n: nat)
    requires n < |s|
    ensures s[n..] == [s[n]] + s[n + 1..]
    ensures s == s[..n] + [s[n]] + s[n + 1..]
  {
  }

  /** Splitting a single-spaced string that has a space in it: the first
      word comes off, then the single space, then the rest. */
  lemma SplitSingleSpacedStep(s: string)
    requires SingleSpaced(s) && s != [] && SpanWord(s) < |s|
    ensures var n := SpanWord(s);
      && n + 1 < |s| && SingleSpaced(s[n + 1..])
      && s == s[..n] + " " + s[n + 1..]
      && Split(s) == [s[..n]] + Split(s[n + 1..])
      && Split(s[n + 1..]) != []
  {
    var n := SpanWord(s);
    var w, u := s[..n], s[n..];
    assert s == w + u;
    assert !IsSpace(s[0]);
    SplitWordFirst(w, u);
    SingleSpacedRest(s, n);
    DropCons(s, n);
    SplitSkipOne(s[n], s[n + 1..]);
    assert s[n] == ' ';
    assert !AllSpace(s[n + 1..]) by { assert !IsSpace(s[n + 1..][0]); }
  }

  /** `" ".join` of a word and further words. */
  lemma JoinCons(w: string, ws: seq<string>)
    requires ws != []
    ensures JoinWords([w] + ws) == w + " " + JoinWords(ws)
  {
    assert ([w] + ws)[1..] == ws;
  }

  /** A single-spaced string is the join of its own words. */
  lemma {:induction false} JoinSplit(s: string)
    requires SingleSpaced(s)
    ensures JoinWords(Split(s)) == s
    decreases |s|
  {
    if s != [] {
      var n := SpanWord(s);
      if n == |s| {
        SplitWord(s);
      } else {
        SplitSingleSpacedStep(s);
        var rest := s[n + 1..];
        JoinSplit(rest);
        JoinCons(s[..n], Split(rest));
      }
    }
  }
}

=== FILE: wrappers.dfy ===
/** The optional value a dictionary lookup yields. */
module Wrappers {

  datatype Option<+T> = None | Some(value: T)
}
